=== FILE: README.md ===
# LinkedIn messaging client: URNs, session state machine, event dispatch, TODO checker

This project is a Dafny model of the logic at the centre of the
`linkedin-messaging` Python client and of its repository's style checker.
The client talks to LinkedIn's private messaging API. The model has three parts.

- **URNs** (`Urn`). A URN is parsed as a colon-joined prefix and
  comma-separated id parts, which are written in parentheses when there are
  several. The model covers parsing, printing, equality over the id parts
  only, the hash key `id_str`, and the field encoder and decoder. The
  round trips are proved in both directions.
- **The client** (`Session`, `Conversations`, `Events`).
  - The session is a record. It holds the cookie jar, the session headers
    and the two-factor payload.
  - The operations are pure functions of the client record and the
    server's responses.
    - `login` and `enter_2fa` return a `Step`: the new client, how the call
      ended (a return or the exception raised) and the requests it sent, in
      order.
    - `logged_in` and `logout` leave the client unchanged. They return a
      `Verdict`: the boolean answer and the requests sent.
    - `from_pickle` takes a saved cookie jar and returns a fresh client.
  - The `csrf-token` header is derived from the last `JSESSIONID` cookie,
    with the surrounding `"` characters stripped.
  - Conversations are listed by paging. `get_conversation` refuses a URN
    that does not name exactly one conversation.
  - Listeners are kept in a registry in insertion order. A streaming
    connection becomes a trace of listener invocations. The line whose read
    leaves the stream at end of file is never handled.
- **The style checker** (`StyleCheck`, for `cicd/custom_style_check.py`).
  - The two anchored regular expressions are written as recognisers.
    `todo_re` finds TODO comments. `accounted_for_todo` accepts those that
    name an issue.
  - A recogniser is proved sound (what it matches renders back to the line)
    and complete (every documented form is matched) against a datatype of
    TODO lines.
  - Python's `\s` is the concrete set of characters `str.isspace` accepts.
    `\w` and `\d` stay abstract (`CharClasses`). The only assumptions about
    them are that `#` and `/` are not word characters and `)` is not a digit.
  - The model also covers the per-file line loop, the conjunction over the
    `.py` arguments, the `CHANGELOG.md` version check and the exit status.

Supporting modules:

- `Wrappers`: `Option` and `Result`.
- `Exceptions`: the Python exceptions that are raised, as a datatype.
- `Strings`: Python's `str.split(sep)`, `sep.join`, `str.strip(chars)` and
  `startswith`/`endswith`.
- `Json`: decoded JSON values, with Python truthiness and `dict.get`.
- `Http`: cookies, pages reduced to their `<input name=… value=…>` map,
  responses and requests.

The cookie jar is a sequence in the order iterating over it yields the
cookies, not a set. The client's loop sets the header from every
`JSESSIONID` cookie it meets, so the last one wins, and a set would leave
that choice open.

Behaviour of the code worth noting:

- A seed page without the `loginCsrfParam` input raises a `TypeError`,
  because `None` is subscripted.
- A challenge page missing one of the twelve fields raises the same
  `TypeError`.
- A restored session gets the same `csrf-token` only when the saved one
  matched its jar (`Session.RestoreRoundTrip`). The value is always derived
  afresh from the last `JSESSIONID` cookie.
- The client defines one exception class of its own, `ChallengeException`.
  Every other failure is a built-in Python exception:
  - `Exception` with a message, in `login`, `enter_2fa` and the stream
    connection;
  - `TypeError`, for a missing page input or a URN with other than one id;
  - `AttributeError`, for `enter_2fa` before any challenge, or for `.get`
    on stream data that is not a JSON object;
  - `AssertionError`, in `get_id` and in the version check;
  - the errors of JSON decoding and of record decoding, on a stream line.

## Model

| member | source | states |
|---|---|---|
| Urn.Parse | linkedin_messaging/api_objects.py:16-19 | a parsed URN always has at least one id part, and no id part contains a comma |
| Urn.ParseAtLastColon | linkedin_messaging/api_objects.py:16-19 | the prefix is everything before the last colon; the id parts come from the text after it, parentheses stripped and split on commas |
| Urn.ParseWithoutColon | linkedin_messaging/api_objects.py:17-19 | text without a colon has the empty prefix; without commas or edge parentheses it is the single id part |
| Urn.GetId | linkedin_messaging/api_objects.py:21-23 | `get_id` succeeds exactly when there is one id part and returns it; otherwise the assertion fails |
| Urn.GetIdOfParsed | linkedin_messaging/api_objects.py:16-23 | `get_id` of a parsed `prefix:id` gives back `id` |
| Urn.Equals | linkedin_messaging/api_objects.py:41-44 | a non-URN is never equal; equal URNs have equal `id_str` |
| Urn.EqualsIsEquivalence | linkedin_messaging/api_objects.py:41-44 | `==` is reflexive, symmetric and transitive, and ignores the prefix |
| Urn.EqualsIffSameIdStr | linkedin_messaging/api_objects.py:25-44 | for URNs whose parts hold no comma, being equal and having the same hash key `id_str` are the same thing |
| Urn.ParseShow | linkedin_messaging/api_objects.py:16-36 | printing then parsing gives back the URN, prefix included, when no id part holds `:`, `,`, `(` or `)` |
| Urn.ShowParseSingle | linkedin_messaging/api_objects.py:16-36 | `prefix:id` text prints back exactly as written |
| Urn.ShowParseMulti | linkedin_messaging/api_objects.py:16-36 | `prefix:(a,b,...)` text with at least two ids prints back exactly as written |
| Urn.DecodeField | linkedin_messaging/api_objects.py:53 | the decoder gives a URN exactly for a present, non-empty string, and then it is that string parsed |
| Urn.EncodeField | linkedin_messaging/api_objects.py:57 | the encoder gives text exactly for a URN, which is its non-empty printed form |
| Urn.DecodeEncode | linkedin_messaging/api_objects.py:53-57 | decoding what was encoded gives back a printable URN |
| Strings.JoinSplit | linkedin_messaging/api_objects.py:17-18 | joining the pieces of a split with the same separator restores the text |
| Strings.SplitJoin | linkedin_messaging/api_objects.py:19 | splitting a join of separator-free parts gives the parts back |
| Strings.StripWrapped | linkedin_messaging/api_objects.py:19 | stripping removes exactly one wrapping character on each side of text that does not start or end with a stripped character |
| Session.HasAuthCookiesIff | linkedin_messaging/linkedin.py:111-113 | the auth cookies are present exactly when some cookie is named `li_at` and some cookie is named `JSESSIONID` |
| Session.WithCsrfLastWins | linkedin_messaging/linkedin.py:150-152 | the loop over the jar leaves `csrf-token` set to the last `JSESSIONID` value with the surrounding `"` stripped, and leaves the headers alone when there is no such cookie |
| Session.FromPickle | linkedin_messaging/linkedin.py:86-93 | a restored client holds exactly the saved cookies and no payload. Its only possible header is `csrf-token`, present exactly when there is a `JSESSIONID` cookie, and then it matches the jar |
| Session.RestoreRoundTrip | linkedin_messaging/linkedin.py:86-97 | saving then restoring keeps the cookies and reproduces a current `csrf-token` value |
| Session.LoggedIn | linkedin_messaging/linkedin.py:115-122 | without auth cookies the answer is false and nothing is sent; otherwise the profile is requested once, and the answer is true exactly when the probe returned something truthy |
| Session.Logout | linkedin_messaging/linkedin.py:196-205 | with no or an empty `csrf-token` the answer is true and nothing is sent; otherwise one logout request carries the token, and the answer is true exactly for status 303 |
| Session.ChallengePayload | linkedin_messaging/linkedin.py:160-178 | the payload holds exactly the twelve challenge fields copied from the page, plus `language=en-US` and `recognizedDevice=on` |
| Session.Login | linkedin_messaging/linkedin.py:124-182 | covers every outcome. A failed seed page raises after one request. A missing CSRF input raises `TypeError` before posting. A login that stops at the seed page keeps exactly the cookies that page set, so a new session's old cookies are gone. The login returns exactly when the auth cookies are there, and then only `csrf-token` changes, set from the last session cookie. A challenge page with all twelve fields raises `ChallengeException` and keeps the payload. A challenge page missing a field raises `TypeError`. Anything else raises "Failed to log in.". On failure a new session has no headers, and an old session keeps its headers |
| Session.Enter2fa | linkedin_messaging/linkedin.py:184-194 | without a payload it raises `AttributeError` and sends nothing. Otherwise it posts the payload with `pin` and keeps the payload. It returns exactly when the auth cookies are there, and then only `csrf-token` changes. On failure the headers are unchanged |
| Session.AuthCookiesGiveCsrf | linkedin_messaging/linkedin.py:149-153 | a successful login always leaves a `csrf-token` equal to the last `JSESSIONID` value without its quotes |
| Session.ChallengeThenCode | linkedin_messaging/linkedin.py:155-186 | a challenge page carrying all twelve fields, after a post that set no auth cookies, makes `login` raise `ChallengeException`; `enter_2fa` then posts exactly the twelve page fields, `language`, `recognizedDevice` and the code as `pin` |
| Session.PinForm | linkedin_messaging/linkedin.py:186 | adding `pin` keeps every captured field and adds exactly one key |
| Session.RetryCode | linkedin_messaging/linkedin.py:184-194 | a failed code does not discard the payload, so a second attempt posts the same form with the new code |
| Session.FailedNewSessionLogsOutLocally | linkedin_messaging/linkedin.py:196-199 | after a failed login on a new session there is no `csrf-token`, so `logout` succeeds without a request |
| Session.LoginThenLogout | linkedin_messaging/linkedin.py:196-205 | after a successful login, `logout` sends the session cookie's unquoted value as `csrfToken` |
| Conversations.AllConversations | linkedin_messaging/linkedin.py:234-251 | every page's elements are yielded in order; the first cursor is now and each later one is the last activity of the previous page's last element; every page before the last requested is full; the walk stops exactly at the first page shorter than 20 |
| Conversations.GetConversation | linkedin_messaging/linkedin.py:264-277 | a URN with other than one id part raises `TypeError` naming the URN and sends nothing; otherwise the events of that id are requested |
| Conversations.GetConversationOfSingle | linkedin_messaging/linkedin.py:264-276 | a parsed `prefix:id` fetches the events of `id` |
| Conversations.GetConversationOfMulti | linkedin_messaging/linkedin.py:264-265 | a parsed `prefix:(a,b,...)` is refused |
| Events.AddEventListenerSpec | linkedin_messaging/linkedin.py:385-390 | adding keeps the registry free of duplicate keys; the listener goes to the end of its key's list only; a new key goes to the end of the key order |
| Events.Calls | linkedin_messaging/linkedin.py:392-394 | `_fire` awaits every listener of the key once, in the order added, with the event |
| Events.EventPayload | linkedin_messaging/linkedin.py:415-417 | the payload is found exactly when the data and its envelope are objects. It is the envelope's `payload` field, or an empty object when there is none. Otherwise `.get` raises `AttributeError` |
| Events.HandleLine | linkedin_messaging/linkedin.py:411-412 | a line not starting with `data:` causes no call and no error |
| Events.DataLineHandled | linkedin_messaging/linkedin.py:411-423 | a `data:` line is parsed from its seventh character on. A JSON decoding error is raised, or `.get` on a non-object raises, or the envelope's payload is dispatched |
| Events.SixthCharacterDropped | linkedin_messaging/linkedin.py:413 | the character right after `data:` is never read |
| Events.DataLineDispatches | linkedin_messaging/linkedin.py:411-423 | a line `data: ` followed by JSON text whose envelope holds payload `p` dispatches `p` to the registry |
| Events.DispatchSound | linkedin_messaging/linkedin.py:419-423 | every call is by a listener of a registered key whose payload value is truthy, with the decoded whole payload |
| Events.DispatchPerKey | linkedin_messaging/linkedin.py:419-423 | in a dispatch that did not raise, each truthy registered key fires exactly its listeners in append order, and no other key fires |
| Events.DispatchKeyOrder | linkedin_messaging/linkedin.py:419-423 | the calls are grouped by key in the registry's insertion order |
| Events.Listen | linkedin_messaging/linkedin.py:403-404 | a status other than 200 raises "Failed to connect. Status N." before anything is read |
| Events.LastReadIgnored | linkedin_messaging/linkedin.py:406-409 | the line read when the stream reaches end of file has no influence: the connection handles exactly the lines before it |
| Events.ProcessAppend | linkedin_messaging/linkedin.py:406-423 | lines are handled one after another: error-free lines add their calls in order, and an error stops everything after it |
| Events.NonDataLineSkipped | linkedin_messaging/linkedin.py:411-412 | removing a line that does not start with `data:` changes nothing |
| Events.ErrorEndsConnection | linkedin_messaging/linkedin.py:413-423 | an exception while handling a line ends the connection with the calls made so far |
| StyleCheck.MatchTodoHeadSound | cicd/custom_style_check.py:23 | what `todo_re` matches is whitespace, `#`, whitespace and `TODO`, then the rest of the line |
| StyleCheck.MatchTodoHeadComplete | cicd/custom_style_check.py:23 | every line of that form matches, split exactly there |
| StyleCheck.ParseNumberSound | cicd/custom_style_check.py:24 | the `#\d+\)` part accepts `#`, one or more digits and `)` |
| StyleCheck.ParseNumberComplete | cicd/custom_style_check.py:24 | every `#digits)` is accepted with its own number |
| StyleCheck.ParseIssueSound | cicd/custom_style_check.py:24 | an accepted issue reference is a well-formed path and number that renders back to the text |
| StyleCheck.ParseIssueComplete | cicd/custom_style_check.py:24 | every well-formed `(path#number)` is accepted with exactly its path and number |
| StyleCheck.ParseTailSound | cicd/custom_style_check.py:24 | after `TODO`, an accepted tail is an optional colon, whitespace and a well-formed reference |
| StyleCheck.ParseTailComplete | cicd/custom_style_check.py:24 | every such tail is accepted with its own parts |
| StyleCheck.ParseTodoSound | cicd/custom_style_check.py:24 | what `accounted_for_todo` matches is a well-formed TODO line that renders back to the line |
| StyleCheck.ParseTodoComplete | cicd/custom_style_check.py:24 | every well-formed TODO line is matched with exactly its own parts |
| StyleCheck.SuffixIrrelevant | cicd/custom_style_check.py:24 | text appended after an accepted TODO keeps it accepted |
| StyleCheck.FlaggedIff | cicd/custom_style_check.py:41 | a line is reported exactly when it starts a TODO comment and is not a well-formed TODO line |
| StyleCheck.WellFormedNotFlagged | cicd/custom_style_check.py:41 | a well-formed TODO line is never reported |
| StyleCheck.TrailingTodoNotFlagged | cicd/custom_style_check.py:23 | a TODO comment after code on the same line is never reported |
| StyleCheck.NoIssueFlagged | cicd/custom_style_check.py:41 | a TODO whose text does not open a parenthesis is reported |
| StyleCheck.AcceptsBareIssue | cicd/custom_style_check.py:7 | `# TODO (#1)` is accepted |
| StyleCheck.AcceptsProjectIssue | cicd/custom_style_check.py:9-13 | `# TODO: (p#1)`, with the optional colon, is accepted |
| StyleCheck.AcceptsNamespacedIssue | cicd/custom_style_check.py:10 | `# TODO (namespace/project#N)` is accepted |
| StyleCheck.ReportLines | cicd/custom_style_check.py:40-43 | the reported numbers count from 1, are increasing, and are exactly the failing lines; the result is valid exactly when none fail |
| StyleCheck.CheckFile | cicd/custom_style_check.py:35-46 | a file passes exactly when no line is flagged, and the flagged lines are reported in order |
| StyleCheck.ConjoinedIff | cicd/custom_style_check.py:49-52 | the accumulated `valid &=` is the conjunction over every `.py` path |
| StyleCheck.PyPathsMembers | cicd/custom_style_check.py:49-51 | the paths the loop checks are exactly the arguments ending in `.py` |
| StyleCheck.CheckArguments | cicd/custom_style_check.py:49-52 | the run is valid exactly when every `.py` argument after the program name passes. The paths checked are exactly the `.py` arguments, in argument order, with repeats kept |
| StyleCheck.AssignmentWords | cicd/custom_style_check.py:62 | for `name = value` with whitespace around the `=`, the last word of `split()` is the value as written |
| StyleCheck.FindVersionFirst | cicd/custom_style_check.py:59-63 | the first line starting with `__version__` decides the version, from its last word |
| StyleCheck.FindVersionMissing | cicd/custom_style_check.py:64-65 | without such a line the check raises "No version in linkedin_messaging/__init__.py" |
| StyleCheck.ChangelogCheckSound | cicd/custom_style_check.py:67-68 | a passing first line is `# v` and the version, surrounded only by whitespace |
| StyleCheck.ChangelogCheckComplete | cicd/custom_style_check.py:67-68 | `# v` and the version, with any whitespace around it, passes |
| StyleCheck.Run | cicd/custom_style_check.py:49-70 | a failing version check when `CHANGELOG.md` is an argument ends the script uncaught; otherwise the exit status is 0 exactly when every `.py` file passes; overall the status is 0 exactly when both checks pass |

## Left out

- Networking, `asyncio` and the `start_listener` retry loop are not modelled. Every response is an input and every request an output. The retry loop never ends.
- HTML parsing with BeautifulSoup is not modelled. A page is the map from `<input>` names to the value of the first such input.
- The pickle format is not modelled. The saved form of a session is its cookie jar.
- Record decoding with `dataclasses_json` is not modelled. The event decoder and `json.loads` are function parameters (`fromDict`, `parse`). In the version check, `eval` is the `evaluate` parameter.
- `datetime` conversions are left out, because they are floating point. Cursors and `createdBefore` are integer milliseconds, and "now" is a parameter.
- `get_conversations` is modelled only as the request it sends. Decoding the response is left out; the pages are inputs.
- These request builders are not modelled: `upload_media`, `send_message`, `download_linkedin_media`, `download_profile_picture`, `get_user_profile` (except as the probe of `logged_in`), `close`, `_get` and `_post`.
- Cookies set by the responses to the profile probe and to the logout request are not modelled, and neither are the jar's expiry rules.
- Listeners are opaque ids. An exception inside a listener is not modelled, and neither is a change to the registry during a dispatch.
- UTF-8 decoding of stream lines is not modelled. Lines are strings.
- `\w` and `\d` are abstract predicates, because Python's are defined by the Unicode database.
- Opening files and reading `sys.argv` are not modelled. The contents of each path and the first line of `CHANGELOG.md` are inputs. A missing file, which raises, is not modelled.
- The checker's printing and colouring, and `noqa_re`, are not modelled. `noqa_re` is never used.
- The example scripts and the package's `__init__.py` are not modelled.
- Conversations.GetConversationOfMulti: states only that the request is refused. The error message is stated for every URN by `Conversations.GetConversation`.
- StyleCheck.AcceptsNamespacedIssue: shows one namespace level. Deeper paths are covered by `StyleCheck.ParseTodoComplete`.

=== FILE: conversations.dfy ===
/** Conversation listing: the paged walk over all conversations and the
    single-conversation fetch, which refuses a URN that does not name exactly
    one conversation before sending anything. Timestamps are the integer
    milliseconds the requests carry. */
module Conversations {
  import opened Wrappers
  import opened Exceptions
  import opened Http
  import opened Urn
  import Session

  /** The server's page size: a shorter page is the last one. */
  const PageSize := 20

  /** A conversation, reduced to what paging looks at. */
  datatype Conversation = Conversation(entityUrn: URN, lastActivityAt: int)

  /** `get_conversations(last_activity_before)`: the request for one page. */
  function ConversationsRequest(before: int): Request
  {
    Get(Session.ApiBaseUrl + "/messaging/conversations",
        map["keyVersion" := Text("LEGACY_INBOX"), "createdBefore" := Number(before)])
  }

  /** The elements of the pages, page after page. */
  function Flatten(pages: seq<seq<Conversation>>): seq<Conversation>
  {
    if |pages| == 0 then [] else Flatten(pages[..|pages| - 1]) + pages[|pages| - 1]
  }

  /** The cursor of the first request, then the last activity of the previous
      page's last conversation. */
  predicate CursorsFollow(now: int, pages: seq<seq<Conversation>>, requests: seq<Request>)
    requires |requests| <= |pages|
  {
    && (|requests| > 0 ==> requests[0] == ConversationsRequest(now))
    && forall i :: 1 <= i < |requests| ==>
         |pages[i - 1]| > 0 &&
         requests[i] == ConversationsRequest(pages[i - 1][|pages[i - 1]| - 1].lastActivityAt)
  }

  /** `get_all_conversations`: `pages[i]` is the server's answer to the i-th
      request. Every element is yielded in order; the walk stops after the
      first page with fewer than `PageSize` elements (`finished`), or when the
      given answers run out. */
  method AllConversations(now: int, pages: seq<seq<Conversation>>)
      returns (yielded: seq<Conversation>, requests: seq<Request>, finished: bool)
    ensures |requests| <= |pages|
    ensures yielded == Flatten(pages[..|requests|])
    ensures CursorsFollow(now, pages, requests)
    // every page answered before the last one requested was full
    ensures forall i :: 0 <= i < |requests| - 1 ==> |pages[i]| >= PageSize
    // it stops exactly at the first short page
    ensures finished <==> 0 < |requests| && |pages[|requests| - 1]| < PageSize
    ensures !finished ==> |requests| == |pages|
  {
    yielded, requests, finished := [], [], false;
    var cursor := now;
    var i := 0;
    while i < |pages| && !finished
      invariant 0 <= i <= |pages| && |requests| == i
      invariant yielded == Flatten(pages[..i])
      invariant CursorsFollow(now, pages, requests)
      invariant forall j :: 0 <= j < i - 1 ==> |pages[j]| >= PageSize
      invariant finished <==> 0 < i && |pages[i - 1]| < PageSize
      invariant !finished && i > 0 ==> cursor == pages[i - 1][|pages[i - 1]| - 1].lastActivityAt
      invariant i == 0 ==> cursor == now
    {
      requests := requests + [ConversationsRequest(cursor)];
      var page := pages[i];
      yielded := yielded + page;
      assert pages[..i + 1][..i] == pages[..i];
      if |page| < PageSize {
        finished := true;
      } else {
        cursor := page[|page| - 1].lastActivityAt;
      }
      i := i + 1;
    }
  }

  /** `get_conversation`: a URN with other than one id part is rejected with a
      `TypeError` before any request; otherwise the events of the conversation
      named by that part are requested. */
  function GetConversation(urn: URN, createdBefore: int): (r: Result<Request, Raised>)
    ensures r.Failure? <==> |urn.idParts| != 1
    ensures r.Failure? ==> r.error == TypeError("Invalid conversation URN " + Show(urn) + ".")
    ensures r.Success? ==>
              r.value == Get(Session.ApiBaseUrl + "/messaging/conversations/" + urn.idParts[0] + "/events",
                             map["createdBefore" := Number(createdBefore)])
  {
    if |urn.idParts| != 1 then Failure(TypeError("Invalid conversation URN " + Show(urn) + "."))
    else Success(Get(Session.ApiBaseUrl + "/messaging/conversations/" + urn.idParts[0] + "/events",
                     map["createdBefore" := Number(createdBefore)]))
  }

  /** A parsed single-id URN fetches the conversation with that id. */
  lemma GetConversationOfSingle(prefix: string, id: string, createdBefore: int)
    requires PlainId(id)
    ensures GetConversation(Parse(prefix + ":" + id), createdBefore).Success?
    ensures GetConversation(Parse(prefix + ":" + id), createdBefore).value.url
            == Session.ApiBaseUrl + "/messaging/conversations/" + id + "/events"
  {
    ParseShowOne(prefix, id);
  }

  /** A parsed `prefix:(a,b,...)` URN is refused and nothing is sent. */
  lemma GetConversationOfMulti(prefix: string, ids: string, createdBefore: int)
    requires ',' in ids && ':' !in ids && '(' !in ids && ')' !in ids
    ensures GetConversation(Parse(prefix + ":(" + ids + ")"), createdBefore).Failure?
  {
    var tail := "(" + ids + ")";
    assert prefix + ":(" + ids + ")" == prefix + ":" + tail;
    assert tail == ['('] + ids + [')'];
    ParseAtLastColon(prefix, tail);
    Strings.StripWrapped('(', ids, ')', Parens);
    Strings.SplitSeveral(ids, ',');
  }
}

=== FILE: events.dfy ===
/** The real-time event listener: the registry of listeners by payload key,
    `_fire`, and the loop that reads one streaming connection line by line and
    dispatches each `data:` line. Listeners are opaque ids; awaiting one is
    recorded as an `Invocation` in the trace a connection produces, so the
    order in which listeners run is part of the result. */
module Events {
  import opened Wrappers
  import opened Strings
  import opened Exceptions
  import opened Json

  /** An opaque listener callback. */
  type ListenerId = nat

  /** The listeners registered for one payload key, in the order added. */
  datatype Entry = Entry(key: string, listeners: seq<ListenerId>)

  /** The registry: a dictionary of lists, in key-insertion order. */
  type Registry = seq<Entry>

  /** One awaited listener call: which listener, for which key, with which event. */
  datatype Invocation<E> = Invocation(listener: ListenerId, key: string, event: E)

  /** The listeners a connection ran, and the exception that ended it, if any. */
  datatype Trace<E> = Trace(calls: seq<Invocation<E>>, error: Option<Raised>)

  /** A dictionary never holds a key twice. */
  predicate Valid(r: Registry)
  {
    forall i, j :: 0 <= i < j < |r| ==> r[i].key != r[j].key
  }

  function Keys(r: Registry): (ks: seq<string>)
    ensures |ks| == |r|
    ensures forall i :: 0 <= i < |r| ==> ks[i] == r[i].key
  {
    if |r| == 0 then [] else [r[0].key] + Keys(r[1..])
  }

  /** Where `key` sits in the registry: the first entry carrying it, or
      `|r|` when there is none. */
  function IndexOf(r: Registry, key: string): (i: nat)
    ensures i <= |r|
    ensures i < |r| ==> r[i].key == key
    ensures forall j :: 0 <= j < i ==> r[j].key != key
    decreases |r|
  {
    if |r| == 0 then 0
    else if r[0].key == key then 0
    else 1 + IndexOf(r[1..], key)
  }

  /** `event_listeners[key]` of the default dictionary: the empty list for a
      key never registered. */
  function Lookup(r: Registry, key: string): seq<ListenerId>
  {
    var i := IndexOf(r, key);
    if i < |r| then r[i].listeners else []
  }

  /** The key is registered exactly when it has a position. */
  lemma IndexOfIffKey(r: Registry, key: string)
    ensures IndexOf(r, key) < |r| <==> key in Keys(r)
  {
    if key in Keys(r) {
      var j :| 0 <= j < |r| && Keys(r)[j] == key;
      assert r[j].key == key;
    }
  }

  /** Two registries with the same keys in the same places agree on positions. */
  lemma {:induction false} IndexOfSameKeys(r: Registry, r': Registry, key: string)
    requires |r| == |r'|
    requires forall i :: 0 <= i < |r| ==> r[i].key == r'[i].key
    ensures IndexOf(r, key) == IndexOf(r', key)
    decreases |r|
  {
    if |r| > 0 && r[0].key != key {
      IndexOfSameKeys(r[1..], r'[1..], key);
    }
  }

  /** A key other than the appended one keeps its position, or stays absent. */
  lemma {:induction false} IndexOfAppend(r: Registry, e: Entry, key: string)
    requires e.key != key
    ensures IndexOf(r + [e], key) == if IndexOf(r, key) < |r| then IndexOf(r, key) else |r| + 1
    decreases |r|
  {
    if |r| > 0 && r[0].key != key {
      assert (r + [e])[1..] == r[1..] + [e];
      IndexOfAppend(r[1..], e, key);
    } else if |r| == 0 {
      assert ([e])[1..] == [];
    }
  }

  /** `add_event_listener`: the listener goes to the end of its key's list; a
      new key goes to the end of the registry. */
  function AddEventListener(r: Registry, key: string, fn: ListenerId): Registry
  {
    var i := IndexOf(r, key);
    if i == |r| then r + [Entry(key, [fn])]
    else r[i := Entry(key, r[i].listeners + [fn])]
  }

  /** Adding a listener keeps the registry a dictionary, appends the listener
      to its key's list only, and adds the key at the end if it was new. */
  lemma AddEventListenerSpec(r: Registry, key: string, fn: ListenerId)
    requires Valid(r)
    ensures Valid(AddEventListener(r, key, fn))
    ensures Keys(AddEventListener(r, key, fn)) == if key in Keys(r) then Keys(r) else Keys(r) + [key]
    ensures Lookup(AddEventListener(r, key, fn), key) == Lookup(r, key) + [fn]
    ensures forall k :: k != key ==> Lookup(AddEventListener(r, key, fn), k) == Lookup(r, k)
  {
    IndexOfIffKey(r, key);
    if IndexOf(r, key) == |r| {
      AddNewKey(r, key, fn);
    } else {
      AddKnownKey(r, key, fn);
    }
  }

  lemma AddNewKey(r: Registry, key: string, fn: ListenerId)
    requires Valid(r) && IndexOf(r, key) == |r|
    ensures var r' := r + [Entry(key, [fn])];
            && Valid(r')
            && Keys(r') == Keys(r) + [key]
            && Lookup(r', key) == Lookup(r, key) + [fn]
            && forall k :: k != key ==> Lookup(r', k) == Lookup(r, k)
  {
    var r' := r + [Entry(key, [fn])];
    assert Valid(r') by {
      assert forall j :: 0 <= j < |r| ==> r'[j] == r[j] && r[j].key != key;
    }
    assert Keys(r') == Keys(r) + [key];
    assert Lookup(r', key) == [fn] by {
      assert r'[|r|].key == key;
      assert forall j :: 0 <= j < |r| ==> r'[j].key != key;
    }
    forall k | k != key
      ensures Lookup(r', k) == Lookup(r, k)
    {
      IndexOfAppend(r, Entry(key, [fn]), k);
      if IndexOf(r, k) < |r| {
        assert r'[IndexOf(r, k)] == r[IndexOf(r, k)];
      }
    }
  }

  lemma AddKnownKey(r: Registry, key: string, fn: ListenerId)
    requires Valid(r) && IndexOf(r, key) < |r|
    ensures var r' := r[IndexOf(r, key) := Entry(key, r[IndexOf(r, key)].listeners + [fn])];
            && Valid(r')
            && Keys(r') == Keys(r)
            && Lookup(r', key) == Lookup(r, key) + [fn]
            && forall k :: k != key ==> Lookup(r', k) == Lookup(r, k)
  {
    var i := IndexOf(r, key);
    var e := Entry(key, r[i].listeners + [fn]);
    ReplaceEntry(r, i, e);
    var r' := r[i := e];
    forall k | k != key
      ensures Lookup(r', k) == Lookup(r, k)
    {
      IndexOfSameKeys(r, r', k);
    }
  }

  /** Replacing an entry by one with the same key changes neither the keys nor
      the positions. */
  lemma ReplaceEntry(r: Registry, i: nat, e: Entry)
    requires Valid(r) && i < |r| && r[i].key == e.key
    ensures Valid(r[i := e]) && Keys(r[i := e]) == Keys(r)
    ensures IndexOf(r[i := e], e.key) == i
  {
    IndexOfSameKeys(r, r[i := e], e.key);
  }

  /** An unregistered key has no listeners. */
  lemma LookupAbsent(r: Registry, key: string)
    requires key !in Keys(r)
    ensures Lookup(r, key) == []
  {
    IndexOfIffKey(r, key);
  }

  /** Past the first entry, keys other than the first one's are found in the rest. */
  lemma LookupRest(r: Registry, key: string)
    requires |r| > 0 && r[0].key != key
    ensures Lookup(r, key) == Lookup(r[1..], key)
    ensures IndexOf(r, key) == 1 + IndexOf(r[1..], key)
  {
  }

  /** `_fire`: every listener of the key, in the order added, with the event. */
  function Fire<E>(r: Registry, key: string, event: E): seq<Invocation<E>>
  {
    Calls(Lookup(r, key), key, event)
  }

  function Calls<E>(ls: seq<ListenerId>, key: string, event: E): (t: seq<Invocation<E>>)
    ensures |t| == |ls|
    ensures forall i :: 0 <= i < |ls| ==> t[i] == Invocation(ls[i], key, event)
  {
    if |ls| == 0 then [] else [Invocation(ls[0], key, event)] + Calls(ls[1..], key, event)
  }

  // ---------------------------------------------------------------------------
  // Dispatching one payload
  // ---------------------------------------------------------------------------

  /** For each registered key in order whose payload value is truthy, decode
      the whole payload and fire the key's listeners with it. The payload must
      be an object once a key is looked up in it; a decoding failure stops the
      whole dispatch. `fromDict` stands for the record decoder. */
  function Dispatch<E>(entries: Registry, payload: Json, fromDict: map<string, Json> -> Option<E>): Trace<E>
    decreases |entries|
  {
    if |entries| == 0 then Trace([], None)
    else if !payload.JObject? then Trace([], Some(AttributeError("get")))
    else
      var key := entries[0].key;
      if Truthy(Get(payload.fields, key, JNull)) then
        match fromDict(payload.fields)
        case None => Trace([], Some(EventDecodeError))
        case Some(event) =>
          var rest := Dispatch(entries[1..], payload, fromDict);
          Trace(Calls(entries[0].listeners, key, event) + rest.calls, rest.error)
      else Dispatch(entries[1..], payload, fromDict)
  }

  /** The calls of a trace made for one key. */
  function ForKey<E>(t: seq<Invocation<E>>, key: string): seq<Invocation<E>>
  {
    if |t| == 0 then []
    else (if t[0].key == key then [t[0]] else []) + ForKey(t[1..], key)
  }

  lemma {:induction false} ForKeyAppend<E>(a: seq<Invocation<E>>, b: seq<Invocation<E>>, key: string)
    ensures ForKey(a + b, key) == ForKey(a, key) + ForKey(b, key)
    decreases |a|
  {
    if |a| > 0 {
      assert (a + b)[1..] == a[1..] + b;
      ForKeyAppend(a[1..], b, key);
    } else {
      assert a + b == b;
    }
  }

  lemma {:induction false} ForKeyOfCalls<E>(ls: seq<ListenerId>, k: string, event: E, key: string)
    ensures ForKey(Calls(ls, k, event), key) == if k == key then Calls(ls, k, event) else []
    decreases |ls|
  {
    if |ls| > 0 {
      ForKeyOfCalls(ls[1..], k, event, key);
      ForKeyAppend([Invocation(ls[0], k, event)], Calls(ls[1..], k, event), key);
    }
  }

  /** One step of a dispatch over a non-empty registry and an object payload:
      the first key's calls, if any, come before those of the rest. */
  lemma DispatchStep<E>(r: Registry, payload: Json, fromDict: map<string, Json> -> Option<E>)
    requires |r| > 0 && payload.JObject?
    ensures var t := Dispatch(r, payload, fromDict).calls;
            var rest := Dispatch(r[1..], payload, fromDict).calls;
            && (!Truthy(Get(payload.fields, r[0].key, JNull)) ==> t == rest)
            && (Truthy(Get(payload.fields, r[0].key, JNull)) && fromDict(payload.fields).Some? ==>
                  t == Calls(r[0].listeners, r[0].key, fromDict(payload.fields).value) + rest)
            && (Truthy(Get(payload.fields, r[0].key, JNull)) && fromDict(payload.fields).None? ==> t == [])
  {
  }

  /** A call made for a key of the rest of a registry is also one for a key of
      the whole registry, by one of that key's listeners. */
  lemma RestCallSound<E>(r: Registry, c: Invocation<E>)
    requires Valid(r) && |r| > 0
    requires c.key in Keys(r[1..]) && c.listener in Lookup(r[1..], c.key)
    ensures c.key in Keys(r) && c.listener in Lookup(r, c.key)
  {
    assert Valid(r[1..]) && r[0].key !in Keys(r[1..]);
    LookupRest(r, c.key);
  }

  /** Every call of a dispatch is for a registered key whose payload value is
      truthy, by one of that key's listeners, with the decoded payload. */
  lemma {:induction false} DispatchSound<E>(r: Registry, payload: Json, fromDict: map<string, Json> -> Option<E>)
    requires Valid(r)
    ensures forall i :: 0 <= i < |Dispatch(r, payload, fromDict).calls| ==>
              var c := Dispatch(r, payload, fromDict).calls[i];
              && c.key in Keys(r)
              && payload.JObject?
              && Truthy(Get(payload.fields, c.key, JNull))
              && c.listener in Lookup(r, c.key)
              && fromDict(payload.fields) == Some(c.event)
    decreases |r|
  {
    var t := Dispatch(r, payload, fromDict).calls;
    if |r| > 0 && payload.JObject? {
      assert Valid(r[1..]);
      DispatchSound(r[1..], payload, fromDict);
      DispatchStep(r, payload, fromDict);
      var key := r[0].key;
      var rest := Dispatch(r[1..], payload, fromDict).calls;
      forall i | 0 <= i < |rest|
        ensures rest[i].key in Keys(r) && rest[i].listener in Lookup(r, rest[i].key)
      {
        RestCallSound(r, rest[i]);
      }
      if Truthy(Get(payload.fields, key, JNull)) && fromDict(payload.fields).Some? {
        var head := Calls(r[0].listeners, key, fromDict(payload.fields).value);
        forall i | 0 <= i < |t|
          ensures t[i].key in Keys(r) && t[i].listener in Lookup(r, t[i].key)
        {
          if i >= |head| {
            assert t[i] == rest[i - |head|];
          }
        }
      }
    }
  }

  /** Seen key by key, a dispatch that raised nothing fires exactly the
      listeners of every registered key whose value is truthy, in the order
      they were added, and no listener of any other key. */
  lemma {:induction false} DispatchPerKey<E>(r: Registry, payload: Json, fromDict: map<string, Json> -> Option<E>, key: string)
    requires Valid(r)
    requires Dispatch(r, payload, fromDict).error.None?
    ensures key !in Keys(r) ==> ForKey(Dispatch(r, payload, fromDict).calls, key) == []
    ensures key in Keys(r) ==> payload.JObject?
    ensures key in Keys(r) && !Truthy(Get(payload.fields, key, JNull)) ==>
              ForKey(Dispatch(r, payload, fromDict).calls, key) == []
    ensures key in Keys(r) && Truthy(Get(payload.fields, key, JNull)) ==>
              && fromDict(payload.fields).Some?
              && ForKey(Dispatch(r, payload, fromDict).calls, key) == Fire(r, key, fromDict(payload.fields).value)
    decreases |r|
  {
    if |r| > 0 {
      var k0 := r[0].key;
      var tail := Dispatch(r[1..], payload, fromDict);
      assert Valid(r[1..]);
      DispatchPerKey(r[1..], payload, fromDict, key);
      if Truthy(Get(payload.fields, k0, JNull)) {
        var event := fromDict(payload.fields).value;
        ForKeyAppend(Calls(r[0].listeners, k0, event), tail.calls, key);
        ForKeyOfCalls(r[0].listeners, k0, event, key);
      }
      if key == k0 {
        assert key !in Keys(r[1..]);
        LookupAbsent(r[1..], key);
      } else {
        LookupRest(r, key);
      }
    }
  }

  /** The calls of `t` are grouped by key in the registry's key order. */
  predicate KeyOrdered<E>(r: Registry, t: seq<Invocation<E>>)
  {
    forall i, j :: 0 <= i < j < |t| ==> IndexOf(r, t[i].key) <= IndexOf(r, t[j].key)
  }

  /** The calls of a dispatch follow the registry's key order. */
  lemma {:induction false} DispatchKeyOrder<E>(r: Registry, payload: Json, fromDict: map<string, Json> -> Option<E>)
    requires Valid(r)
    ensures KeyOrdered(r, Dispatch(r, payload, fromDict).calls)
    decreases |r|
  {
    if |r| > 0 && payload.JObject? {
      assert Valid(r[1..]);
      var key := r[0].key;
      var rest := Dispatch(r[1..], payload, fromDict).calls;
      DispatchKeyOrder(r[1..], payload, fromDict);
      DispatchSound(r[1..], payload, fromDict);
      ShiftOrder(r, rest);
      if Truthy(Get(payload.fields, key, JNull)) && fromDict(payload.fields).Some? {
        var head := Calls(r[0].listeners, key, fromDict(payload.fields).value);
        PrependOrder(r, head, rest);
      }
    }
  }

  /** Calls for keys past the first entry keep their order in the whole registry. */
  lemma ShiftOrder<E>(r: Registry, rest: seq<Invocation<E>>)
    requires Valid(r) && |r| > 0
    requires KeyOrdered(r[1..], rest)
    requires forall i :: 0 <= i < |rest| ==> rest[i].key in Keys(r[1..])
    ensures KeyOrdered(r, rest)
    ensures forall i :: 0 <= i < |rest| ==> IndexOf(r, rest[i].key) >= 1
  {
    forall i | 0 <= i < |rest|
      ensures IndexOf(r, rest[i].key) == 1 + IndexOf(r[1..], rest[i].key)
    {
      assert r[0].key !in Keys(r[1..]);
      LookupRest(r, rest[i].key);
    }
  }

  /** Calls for the first key, then ordered calls for later keys, are ordered. */
  lemma PrependOrder<E>(r: Registry, head: seq<Invocation<E>>, rest: seq<Invocation<E>>)
    requires |r| > 0
    requires forall i :: 0 <= i < |head| ==> head[i].key == r[0].key
    requires KeyOrdered(r, rest)
    requires forall i :: 0 <= i < |rest| ==> IndexOf(r, rest[i].key) >= 1
    ensures KeyOrdered(r, head + rest)
  {
    var t := head + rest;
    forall i, j | 0 <= i < j < |t|
      ensures IndexOf(r, t[i].key) <= IndexOf(r, t[j].key)
    {
      if i >= |head| {
        assert t[i] == rest[i - |head|] && t[j] == rest[j - |head|];
      }
    }
  }

  // ---------------------------------------------------------------------------
  // One streaming connection
  // ---------------------------------------------------------------------------

  const DataMarker := "data:"
  const EnvelopeKey := "com.linkedin.realtimefrontend.DecoratedEvent"

  /** `data.get(ENVELOPE, {}).get("payload", {})`: both levels must be
      objects where `.get` is called. */
  function EventPayload(data: Json): (r: Result<Json, Raised>)
    ensures r.Success? <==> data.JObject? && Get(data.fields, EnvelopeKey, JObject(map[])).JObject?
    ensures r.Failure? ==> r.error == AttributeError("get")
    // the envelope's `payload` field, or an empty object when it has none
    ensures r.Success? ==>
              var envelope := Get(data.fields, EnvelopeKey, JObject(map[]));
              r.value == if "payload" in envelope.fields then envelope.fields["payload"] else JObject(map[])
  {
    if !data.JObject? then Failure(AttributeError("get"))
    else
      var envelope := Get(data.fields, EnvelopeKey, JObject(map[]));
      if !envelope.JObject? then Failure(AttributeError("get"))
      else Success(Get(envelope.fields, "payload", JObject(map[])))
  }

  /** One line of the stream: lines not starting with `data:` are skipped;
      the rest is parsed as JSON from the seventh character on (`parse`
      stands for `json.loads`) and its payload dispatched. */
  function HandleLine<E>(r: Registry, line: string, parse: string -> Option<Json>,
                         fromDict: map<string, Json> -> Option<E>): (t: Trace<E>)
    ensures !StartsWith(line, DataMarker) ==> t == Trace([], None)
  {
    if !StartsWith(line, DataMarker) then Trace([], None)
    else
      match parse(if |line| >= 6 then line[6..] else "")
      case None => Trace([], Some(JsonDecodeError))
      case Some(data) =>
        match EventPayload(data)
        case Failure(e) => Trace([], Some(e))
        case Success(payload) => Dispatch(r, payload, fromDict)
  }

  /** A `data:` line is parsed from its seventh character on: a JSON
      decoding error is raised, or the payload of the decoded value is
      dispatched, or `.get` on a non-object raises. */
  lemma DataLineHandled<E>(r: Registry, c: char, text: string, parse: string -> Option<Json>,
                           fromDict: map<string, Json> -> Option<E>)
    ensures var t := HandleLine(r, DataMarker + [c] + text, parse, fromDict);
            && (parse(text).None? ==> t == Trace([], Some(JsonDecodeError)))
            && (parse(text).Some? && EventPayload(parse(text).value).Failure? ==>
                  t == Trace([], Some(AttributeError("get"))))
            && (parse(text).Some? && EventPayload(parse(text).value).Success? ==>
                  t == Dispatch(r, EventPayload(parse(text).value).value, fromDict))
  {
    var line := DataMarker + [c] + text;
    assert StartsWith(line, DataMarker) by {
      assert line[..|DataMarker|] == DataMarker;
    }
    assert line[6..] == text;
  }

  /** The character right after `data:` is never read. */
  lemma SixthCharacterDropped<E>(r: Registry, c1: char, c2: char, text: string, parse: string -> Option<Json>,
                                 fromDict: map<string, Json> -> Option<E>)
    ensures HandleLine(r, DataMarker + [c1] + text, parse, fromDict)
            == HandleLine(r, DataMarker + [c2] + text, parse, fromDict)
  {
    DataLineHandled(r, c1, text, parse, fromDict);
    DataLineHandled(r, c2, text, parse, fromDict);
  }

  /** The streamed form `data: {envelope: {payload: p}}` dispatches `p`. */
  lemma DataLineDispatches<E>(r: Registry, text: string, parse: string -> Option<Json>,
                              fromDict: map<string, Json> -> Option<E>, p: Json)
    requires parse(text) == Some(JObject(map[EnvelopeKey := JObject(map["payload" := p])]))
    ensures HandleLine(r, "data: " + text, parse, fromDict) == Dispatch(r, p, fromDict)
  {
    assert "data: " + text == DataMarker + [' '] + text;
    DataLineHandled(r, ' ', text, parse, fromDict);
  }

  /** The read loop over the lines it processes: stops at the first line
      whose handling raised, keeping the calls made before. */
  function Process<E>(r: Registry, lines: seq<string>, parse: string -> Option<Json>,
                      fromDict: map<string, Json> -> Option<E>): Trace<E>
    decreases |lines|
  {
    if |lines| == 0 then Trace([], None)
    else
      var first := HandleLine(r, lines[0], parse, fromDict);
      if first.error.Some? then first
      else
        var rest := Process(r, lines[1..], parse, fromDict);
        Trace(first.calls + rest.calls, rest.error)
  }

  /** `_listen_to_event_stream` for one connection. `readLines` are the results of
      successive `readline` calls, the last being the one that left the
      stream at end of file: that line is never handled. A status other than
      200 raises before anything is read. */
  function Listen<E>(r: Registry, status: int, readLines: seq<string>, parse: string -> Option<Json>,
                     fromDict: map<string, Json> -> Option<E>): (t: Trace<E>)
    ensures status != 200 ==>
              t == Trace([], Some(PlainException("Failed to connect. Status " + IntToDecimal(status) + ".")))
  {
    if status != 200 then
      Trace([], Some(PlainException("Failed to connect. Status " + IntToDecimal(status) + ".")))
    else if |readLines| == 0 then Trace([], None)
    else Process(r, readLines[..|readLines| - 1], parse, fromDict)
  }

  /** The line read last, the one that leaves the stream at end of file, does
      not influence the connection at all. */
  lemma LastReadIgnored<E>(r: Registry, readLines: seq<string>, last1: string, last2: string,
                           parse: string -> Option<Json>, fromDict: map<string, Json> -> Option<E>)
    ensures Listen(r, 200, readLines + [last1], parse, fromDict) == Listen(r, 200, readLines + [last2], parse, fromDict)
    ensures Listen(r, 200, readLines + [last1], parse, fromDict) == Process(r, readLines, parse, fromDict)
  {
    assert (readLines + [last1])[..|readLines|] == readLines;
    assert (readLines + [last2])[..|readLines|] == readLines;
  }

  /** Handling is line by line: lines handled without error contribute their
      calls in order and the rest of the stream continues after them. */
  lemma {:induction false} ProcessAppend<E>(r: Registry, a: seq<string>, b: seq<string>,
                                           parse: string -> Option<Json>, fromDict: map<string, Json> -> Option<E>)
    ensures Process(r, a, parse, fromDict).error.None? ==>
              Process(r, a + b, parse, fromDict)
              == Trace(Process(r, a, parse, fromDict).calls + Process(r, b, parse, fromDict).calls,
                       Process(r, b, parse, fromDict).error)
    ensures Process(r, a, parse, fromDict).error.Some? ==>
              Process(r, a + b, parse, fromDict) == Process(r, a, parse, fromDict)
    decreases |a|
  {
    if |a| == 0 {
      assert a + b == b;
    } else {
      assert (a + b)[0] == a[0];
      assert (a + b)[1..] == a[1..] + b;
      ProcessAppend(r, a[1..], b, parse, fromDict);
      ProcessCons(r, a, parse, fromDict);
      ProcessCons(r, a + b, parse, fromDict);
    }
  }

  /** One step of the read loop, with the line's handling kept folded. */
  lemma ProcessCons<E>(r: Registry, lines: seq<string>, parse: string -> Option<Json>,
                       fromDict: map<string, Json> -> Option<E>)
    requires |lines| > 0
    ensures var first := HandleLine(r, lines[0], parse, fromDict);
            Process(r, lines, parse, fromDict)
            == if first.error.Some? then first
               else Trace(first.calls + Process(r, lines[1..], parse, fromDict).calls,
                          Process(r, lines[1..], parse, fromDict).error)
  {
  }

  /** A line that does not start with `data:` can be removed from the stream
      without changing anything. */
  lemma NonDataLineSkipped<E>(r: Registry, a: seq<string>, line: string, b: seq<string>,
                              parse: string -> Option<Json>, fromDict: map<string, Json> -> Option<E>)
    requires !StartsWith(line, DataMarker)
    ensures Process(r, a + [line] + b, parse, fromDict) == Process(r, a + b, parse, fromDict)
  {
    ProcessAppend(r, a, [line] + b, parse, fromDict);
    ProcessAppend(r, a, b, parse, fromDict);
    assert a + [line] + b == a + ([line] + b);
    assert ([line] + b)[1..] == b;
  }

  /** An exception while handling a line ends the connection: nothing after
      that line is handled. */
  lemma ErrorEndsConnection<E>(r: Registry, a: seq<string>, line: string, b: seq<string>,
                               parse: string -> Option<Json>, fromDict: map<string, Json> -> Option<E>)
    requires Process(r, a, parse, fromDict).error.None?
    requires HandleLine(r, line, parse, fromDict).error.Some?
    ensures Process(r, a + [line] + b, parse, fromDict)
            == Trace(Process(r, a, parse, fromDict).calls + HandleLine(r, line, parse, fromDict).calls,
                     HandleLine(r, line, parse, fromDict).error)
  {
    ProcessAppend(r, a, [line] + b, parse, fromDict);
    assert a + [line] + b == a + ([line] + b);
  }
}

=== FILE: exceptions.dfy ===
/** The exceptions the client and the style checker raise. The client raises
    built-in exception classes with a message rather than a hierarchy of its
    own; only `ChallengeException` is a class of its own. */
module Exceptions {

  datatype Raised =
    /** `Exception(message)` */
    | PlainException(message: string)
    /** `TypeError`, both the explicit one and the one Python raises when a
        missing HTML element (`None`) is subscripted */
    | TypeError(message: string)
    /** a failing `assert` statement */
    | AssertionError(message: string)
    /** an attribute that does not exist: an unset instance attribute, or
        `.get` called on a JSON value that is not an object */
    | AttributeError(name: string)
    /** the distinguished signal that a verification code is needed */
    | ChallengeException
    /** `json.loads` rejected a line of the event stream */
    | JsonDecodeError
    /** the record decoder rejected an event payload */
    | EventDecodeError
}

=== FILE: http.dfy ===
/** The abstract HTTP world the client talks to: cookies, the hidden inputs of
    an HTML page, responses and the requests the client issues. */
module Http {

  /** One cookie of the session's jar. */
  datatype Cookie = Cookie(name: string, value: string)

  /** The cookie jar, in the order iterating over it yields the cookies. */
  type Jar = seq<Cookie>

  /** The session-level headers sent with every request. */
  type Headers = map<string, string>

  /** An HTML page, reduced to what the client looks up in it: the value of
      the first `<input>` element carrying a given `name`. */
  datatype Page = Page(inputs: map<string, string>)

  /** A response: its status, the session's cookie jar once the response has
      been received, and its body read as HTML. */
  datatype Response = Response(status: int, jar: Jar, page: Page)

  /** A query parameter. */
  datatype Param = Text(text: string) | Number(number: int)

  /** A request the client issues. */
  datatype Request =
    | Get(url: string, params: map<string, Param>)
    | Post(url: string, form: map<string, string>)
}

=== FILE: json.dfy ===
/** JSON values as `json.loads` returns them, with Python's truthiness and
    `dict.get`. */
module Json {

  /** A decoded JSON value. Numbers are kept as reals; only whether they are
      zero matters to the model. */
  datatype Json =
    | JNull
    | JBool(b: bool)
    | JNumber(n: real)
    | JString(s: string)
    | JArray(items: seq<Json>)
    | JObject(fields: map<string, Json>)

  /** `bool(v)`: `None`, `False`, zero and empty containers are falsy. */
  predicate Truthy(v: Json)
  {
    match v
    case JNull => false
    case JBool(b) => b
    case JNumber(n) => n != 0.0
    case JString(s) => |s| > 0
    case JArray(items) => |items| > 0
    case JObject(fields) => |fields| > 0
  }

  /** `d.get(key, default)` on a JSON object. */
  function Get(fields: map<string, Json>, key: string, default: Json): (v: Json)
    ensures key in fields ==> v == fields[key]
    ensures key !in fields ==> v == default
  {
    if key in fields then fields[key] else default
  }
}

=== FILE: session.dfy ===
/** The client's session and its authentication state machine: the cookie
    jar, the `csrf-token` header derived from the `JSESSIONID` cookie, and the
    login, two-factor, logout and logged-in probes. Every network exchange is
    an input (the response the server gives) and an output (the requests the
    client issued), so each operation is a pure function of the client record. */
module Session {
  import opened Wrappers
  import opened Strings
  import opened Exceptions
  import opened Http

  const SeedUrl := "https://www.linkedin.com/uas/login"
  const LoginUrl := "https://www.linkedin.com/checkpoint/lg/login-submit"
  const VerifyUrl := "https://www.linkedin.com/checkpoint/challenge/verify"
  const LogoutUrl := "https://www.linkedin.com/uas/logout"
  const ApiBaseUrl := "https://www.linkedin.com/voyager/api"

  const CsrfHeader := "csrf-token"
  const SessionCookie := "JSESSIONID"
  const AuthCookie := "li_at"

  /** The hidden inputs copied from a challenge page into the two-factor payload. */
  const ChallengeFields: seq<string> := [
    "csrfToken", "pageInstance", "resendUrl", "challengeId", "displayTime",
    "challengeSource", "requestSubmissionId", "challengeType", "challengeData",
    "challengeDetails", "failureRedirectUri", "flowTreeId"
  ]

  /** The client: its session's cookie jar and headers, and the two-factor
      payload, an attribute that does not exist until a challenge was met. */
  datatype Client = Client(jar: Jar, headers: Headers, twoFactorPayload: Option<map<string, string>>)

  /** How an operation that may raise ended. */
  datatype Outcome = Returned | Threw(error: Raised)

  /** The client after an operation, how the operation ended and the requests
      it issued, in order. */
  datatype Step = Step(client: Client, outcome: Outcome, requests: seq<Request>)

  /** A boolean answer and the requests issued to obtain it. */
  datatype Verdict = Verdict(value: bool, requests: seq<Request>)

  /** What the profile probe of `logged_in` did: raised, or returned a value
      whose truthiness is given. */
  datatype Probe = ProbeRaised | ProbeReturned(truthy: bool)

  /** A fresh client: a new HTTP session has no cookies and no headers. */
  function NewClient(): Client
  {
    Client([], map[], None)
  }

  // ---------------------------------------------------------------------------
  // Cookies and the CSRF header
  // ---------------------------------------------------------------------------

  function CookieNames(jar: Jar): set<string>
  {
    set c | c in jar :: c.name
  }

  /** `has_auth_cookies`: both the `li_at` and the `JSESSIONID` cookie exist. */
  predicate HasAuthCookies(jar: Jar)
  {
    AuthCookie in CookieNames(jar) && SessionCookie in CookieNames(jar)
  }

  /** The auth cookies are there exactly when some cookie is named `li_at` and
      some cookie is named `JSESSIONID`, whatever their values. */
  lemma HasAuthCookiesIff(jar: Jar)
    ensures HasAuthCookies(jar) <==>
              (exists i :: 0 <= i < |jar| && jar[i].name == AuthCookie)
              && (exists j :: 0 <= j < |jar| && jar[j].name == SessionCookie)
  {
    if HasAuthCookies(jar) {
      var a :| a in jar && a.name == AuthCookie;
      var b :| b in jar && b.name == SessionCookie;
      var i :| 0 <= i < |jar| && jar[i] == a;
      var j :| 0 <= j < |jar| && jar[j] == b;
    }
  }

  /** The value of the last cookie named `name` in iteration order. */
  function LastValue(jar: Jar, name: string): Option<string>
    decreases |jar|
  {
    if |jar| == 0 then None
    else if jar[|jar| - 1].name == name then Some(jar[|jar| - 1].value)
    else LastValue(jar[..|jar| - 1], name)
  }

  /** Some cookie carries the name exactly when there is a last one. */
  lemma {:induction false} LastValueIffNamed(jar: Jar, name: string)
    ensures LastValue(jar, name).Some? <==> name in CookieNames(jar)
    decreases |jar|
  {
    if |jar| > 0 && jar[|jar| - 1].name != name {
      var init := jar[..|jar| - 1];
      LastValueIffNamed(init, name);
      assert jar == init + [jar[|jar| - 1]];
      assert CookieNames(jar) == CookieNames(init) + {jar[|jar| - 1].name};
    } else if |jar| > 0 {
      assert jar[|jar| - 1] in jar;
    }
  }

  /** The header value a cookie value yields: surrounding `"` removed. */
  function Unquote(value: string): string
  {
    Strip(value, {'"'})
  }

  /** The loop over the jar that sets `csrf-token` from every `JSESSIONID`
      cookie it meets, front to back. */
  function WithCsrf(jar: Jar, headers: Headers): Headers
    decreases |jar|
  {
    if |jar| == 0 then headers
    else
      WithCsrf(jar[1..], if jar[0].name == SessionCookie
                         then headers[CsrfHeader := Unquote(jar[0].value)]
                         else headers)
  }

  /** The last `JSESSIONID` cookie wins: the header is its unquoted value, and
      the headers are untouched when there is no such cookie. */
  lemma {:induction false} WithCsrfLastWins(jar: Jar, headers: Headers)
    ensures LastValue(jar, SessionCookie).None? ==> WithCsrf(jar, headers) == headers
    ensures LastValue(jar, SessionCookie).Some? ==>
              WithCsrf(jar, headers) == headers[CsrfHeader := Unquote(LastValue(jar, SessionCookie).value)]
    decreases |jar|
  {
    if |jar| > 0 {
      var next := if jar[0].name == SessionCookie
                  then headers[CsrfHeader := Unquote(jar[0].value)]
                  else headers;
      assert WithCsrf(jar, headers) == WithCsrf(jar[1..], next);
      LastValueFront(jar, SessionCookie);
      WithCsrfLastWins(jar[1..], next);
      var later := LastValue(jar[1..], SessionCookie);
      if later.Some? && jar[0].name == SessionCookie {
        OverrideTwice(headers, CsrfHeader, Unquote(jar[0].value), Unquote(later.value));
      }
    }
  }

  /** Setting a header overrides any earlier setting of it. */
  lemma OverrideTwice(headers: Headers, key: string, w: string, v: string)
    ensures headers[key := w][key := v] == headers[key := v]
  {
  }

  /** Looking at the jar from the front: a later cookie of the name wins over
      the first one. */
  lemma {:induction false} LastValueFront(jar: Jar, name: string)
    requires |jar| > 0
    ensures LastValue(jar[1..], name).Some? ==> LastValue(jar, name) == LastValue(jar[1..], name)
    ensures LastValue(jar[1..], name).None? ==>
              LastValue(jar, name) == (if jar[0].name == name then Some(jar[0].value) else None)
    decreases |jar|
  {
    if |jar| > 1 && jar[|jar| - 1].name != name {
      var init := jar[..|jar| - 1];
      LastValueFront(init, name);
      assert init[1..] == jar[1..][..|jar[1..]| - 1];
    }
  }

  /** The session's `csrf-token` header agrees with its current jar. */
  predicate CsrfCurrent(c: Client)
  {
    && LastValue(c.jar, SessionCookie).Some?
    && CsrfHeader in c.headers
    && c.headers[CsrfHeader] == Unquote(LastValue(c.jar, SessionCookie).value)
  }

  /** `to_pickle`: the serialised session is its cookie jar. */
  function ToPickle(c: Client): Jar
  {
    c.jar
  }

  /** `from_pickle`: a fresh client holding the restored cookies, with the
      `csrf-token` header derived from them. */
  function FromPickle(jar: Jar): (c: Client)
    ensures c.jar == jar && c.twoFactorPayload.None?
    ensures CsrfHeader in c.headers <==> SessionCookie in CookieNames(jar)
    ensures SessionCookie in CookieNames(jar) ==> CsrfCurrent(c)
    // a fresh session has no headers, so `csrf-token` is the only one
    ensures c.headers.Keys <= {CsrfHeader}
  {
    WithCsrfLastWins(jar, NewClient().headers);
    LastValueIffNamed(jar, SessionCookie);
    Client(jar, WithCsrf(jar, NewClient().headers), None)
  }

  /** Restoring what was saved presents the same cookies and, when the saved
      session's header was current, the same `csrf-token` value. */
  lemma RestoreRoundTrip(c: Client)
    requires CsrfCurrent(c)
    ensures FromPickle(ToPickle(c)).jar == c.jar
    ensures CsrfCurrent(FromPickle(ToPickle(c)))
    ensures FromPickle(ToPickle(c)).headers[CsrfHeader] == c.headers[CsrfHeader]
  {
    LastValueIffNamed(c.jar, SessionCookie);
  }

  // ---------------------------------------------------------------------------
  // Probes
  // ---------------------------------------------------------------------------

  const ProfileRequest := Get(ApiBaseUrl + "/me", map[])

  /** `logged_in`: false without the auth cookies, and then no request is
      made; otherwise the truthiness of the profile, false if fetching it
      raised. */
  function LoggedIn(c: Client, probe: Probe): (r: Verdict)
    ensures !HasAuthCookies(c.jar) ==> r == Verdict(false, [])
    ensures HasAuthCookies(c.jar) ==> r.requests == [ProfileRequest]
    ensures HasAuthCookies(c.jar) ==> (r.value <==> probe == ProbeReturned(true))
  {
    if !HasAuthCookies(c.jar) then Verdict(false, [])
    else
      match probe
      case ProbeRaised => Verdict(false, [ProfileRequest])
      case ProbeReturned(truthy) => Verdict(truthy, [ProfileRequest])
  }

  /** `logout`: with no (or an empty) `csrf-token` the session counts as
      logged out and nothing is sent; otherwise the logout page is requested
      without following redirects, and only a 303 answer means success. */
  function Logout(c: Client, status: int): (r: Verdict)
    ensures CsrfHeader !in c.headers || c.headers[CsrfHeader] == "" ==> r == Verdict(true, [])
    ensures CsrfHeader in c.headers && c.headers[CsrfHeader] != "" ==>
              && r.requests == [Get(LogoutUrl, map["csrfToken" := Text(c.headers[CsrfHeader])])]
              && (r.value <==> status == 303)
  {
    if CsrfHeader !in c.headers || c.headers[CsrfHeader] == "" then Verdict(true, [])
    else Verdict(status == 303, [Get(LogoutUrl, map["csrfToken" := Text(c.headers[CsrfHeader])])])
  }

  // ---------------------------------------------------------------------------
  // Login
  // ---------------------------------------------------------------------------

  /** The credentials form posted to the login endpoint. */
  function LoginForm(csrfParam: string, email: string, password: string): map<string, string>
  {
    map["loginCsrfParam" := csrfParam, "session_key" := email, "session_password" := password]
  }

  /** Every challenge field is present on the page. */
  predicate HasChallengeFields(inputs: map<string, string>)
  {
    forall k :: k in ChallengeFields ==> k in inputs
  }

  /** The two-factor payload captured from a challenge page: the twelve
      challenge fields copied from the page, plus the language and the
      recognised-device flag. */
  function ChallengePayload(inputs: map<string, string>): (p: map<string, string>)
    requires HasChallengeFields(inputs)
    ensures p.Keys == (set k | k in ChallengeFields) + {"language", "recognizedDevice"}
    ensures forall k :: k in ChallengeFields ==> p[k] == inputs[k]
    ensures p["language"] == "en-US" && p["recognizedDevice"] == "on"
  {
    var fields := map k | k in ChallengeFields :: inputs[k];
    assert fields.Keys == set k | k in ChallengeFields;
    fields["language" := "en-US"]["recognizedDevice" := "on"]
  }

  /** The requests of a login whose seed page was usable. */
  function LoginRequests(csrfParam: string, email: string, password: string): seq<Request>
  {
    [Get(SeedUrl, map[]), Post(LoginUrl, LoginForm(csrfParam, email, password))]
  }

  /** `login`: fetch the seed page, post the credentials, then classify the
      result: auth cookies mean success (and a fresh `csrf-token`), a
      `challengeId` input means a verification code is needed (the payload
      is captured and `ChallengeException` raised), anything else fails.
      With `newSession` the old HTTP session, headers included, is replaced
      first. `seed` and `submit` are the server's two responses. */
  function Login(c: Client, email: string, password: string, newSession: bool,
                 seed: Response, submit: Response): (s: Step)
    // a failed seed fetch raises after that single request
    ensures seed.status != 200 ==>
              && s.outcome == Threw(PlainException("Couldn't open the CSRF seed page"))
              && s.requests == [Get(SeedUrl, map[])]
    // a login that stops at the seed page keeps just the cookies that page set
    ensures seed.status != 200 || "loginCsrfParam" !in seed.page.inputs ==> s.client.jar == seed.jar
    // a seed page without the CSRF input raises a TypeError before posting
    ensures seed.status == 200 && "loginCsrfParam" !in seed.page.inputs ==>
              && s.outcome == Threw(TypeError("'NoneType' object is not subscriptable"))
              && s.requests == [Get(SeedUrl, map[])]
    // otherwise the credentials are posted with the page's CSRF parameter
    ensures seed.status == 200 && "loginCsrfParam" in seed.page.inputs ==>
              && s.requests == LoginRequests(seed.page.inputs["loginCsrfParam"], email, password)
              && s.client.jar == submit.jar
    // success iff the credentials were posted and the auth cookies came back
    ensures s.outcome == Returned <==>
              seed.status == 200 && "loginCsrfParam" in seed.page.inputs && HasAuthCookies(submit.jar)
    ensures s.outcome == Returned ==> CsrfCurrent(s.client)
    // a challenge page with all its fields raises ChallengeException and keeps the payload
    ensures s.outcome == Threw(ChallengeException) <==>
              && seed.status == 200 && "loginCsrfParam" in seed.page.inputs
              && !HasAuthCookies(submit.jar)
              && "challengeId" in submit.page.inputs && HasChallengeFields(submit.page.inputs)
    ensures s.outcome == Threw(ChallengeException) ==>
              s.client.twoFactorPayload == Some(ChallengePayload(submit.page.inputs))
    ensures s.outcome != Threw(ChallengeException) ==> s.client.twoFactorPayload == c.twoFactorPayload
    // neither cookies nor a challenge: the generic failure
    ensures seed.status == 200 && "loginCsrfParam" in seed.page.inputs
            && !HasAuthCookies(submit.jar) && "challengeId" !in submit.page.inputs ==>
              s.outcome == Threw(PlainException("Failed to log in."))
    // a challenge page missing one of the fields raises a TypeError
    ensures seed.status == 200 && "loginCsrfParam" in seed.page.inputs
            && !HasAuthCookies(submit.jar) && "challengeId" in submit.page.inputs
            && !HasChallengeFields(submit.page.inputs) ==>
              s.outcome == Threw(TypeError("'NoneType' object is not subscriptable"))
    // a new session starts without the old headers; otherwise they are kept
    ensures newSession && s.outcome != Returned ==> s.client.headers == map[]
    ensures !newSession && s.outcome != Returned ==> s.client.headers == c.headers
    // success changes only `csrf-token`, set from the last session cookie
    ensures s.outcome == Returned ==>
              && LastValue(submit.jar, SessionCookie).Some?
              && s.client.headers == (if newSession then map[] else c.headers)[CsrfHeader :=
                                        Unquote(LastValue(submit.jar, SessionCookie).value)]
  {
    var renewed := if newSession then c.(jar := [], headers := map[]) else c;
    var seeded := renewed.(jar := seed.jar);
    if seed.status != 200 then
      Step(seeded, Threw(PlainException("Couldn't open the CSRF seed page")), [Get(SeedUrl, map[])])
    else if "loginCsrfParam" !in seed.page.inputs then
      Step(seeded, Threw(TypeError("'NoneType' object is not subscriptable")), [Get(SeedUrl, map[])])
    else
      var requests := LoginRequests(seed.page.inputs["loginCsrfParam"], email, password);
      var submitted := seeded.(jar := submit.jar);
      if HasAuthCookies(submit.jar) then
        WithCsrfLastWins(submit.jar, submitted.headers);
        LastValueIffNamed(submit.jar, SessionCookie);
        Step(submitted.(headers := WithCsrf(submit.jar, submitted.headers)), Returned, requests)
      else if "challengeId" in submit.page.inputs then
        if HasChallengeFields(submit.page.inputs) then
          Step(submitted.(twoFactorPayload := Some(ChallengePayload(submit.page.inputs))),
               Threw(ChallengeException), requests)
        else
          Step(submitted, Threw(TypeError("'NoneType' object is not subscriptable")), requests)
      else
        Step(submitted, Threw(PlainException("Failed to log in.")), requests)
  }

  /** `enter_2fa`: post the stored payload plus the code as `pin`; success iff
      the auth cookies are present afterwards. The payload is kept either way;
      without one the attribute lookup fails before anything is sent. */
  function Enter2fa(c: Client, code: string, verify: Response): (s: Step)
    ensures c.twoFactorPayload.None? ==>
              s == Step(c, Threw(AttributeError("two_factor_payload")), [])
    ensures c.twoFactorPayload.Some? ==>
              && s.requests == [Post(VerifyUrl, c.twoFactorPayload.value["pin" := code])]
              && s.client.jar == verify.jar
              && s.client.twoFactorPayload == c.twoFactorPayload
    ensures s.outcome == Returned <==> c.twoFactorPayload.Some? && HasAuthCookies(verify.jar)
    ensures s.outcome == Returned ==> CsrfCurrent(s.client)
    ensures c.twoFactorPayload.Some? && !HasAuthCookies(verify.jar) ==>
              s.outcome == Threw(PlainException("Failed to log in.")) && s.client.headers == c.headers
    // success changes only `csrf-token`, set from the last session cookie
    ensures s.outcome == Returned ==>
              && LastValue(verify.jar, SessionCookie).Some?
              && s.client.headers == c.headers[CsrfHeader := Unquote(LastValue(verify.jar, SessionCookie).value)]
  {
    match c.twoFactorPayload
    case None => Step(c, Threw(AttributeError("two_factor_payload")), [])
    case Some(payload) =>
      var requests := [Post(VerifyUrl, payload["pin" := code])];
      var verified := c.(jar := verify.jar);
      if HasAuthCookies(verify.jar) then
        WithCsrfLastWins(verify.jar, verified.headers);
        LastValueIffNamed(verify.jar, SessionCookie);
        Step(verified.(headers := WithCsrf(verify.jar, verified.headers)), Returned, requests)
      else
        Step(verified, Threw(PlainException("Failed to log in.")), requests)
  }

  // ---------------------------------------------------------------------------
  // Properties across operations
  // ---------------------------------------------------------------------------

  /** The auth cookies include `JSESSIONID`, so success always leaves a
      `csrf-token` header: the value of the last `JSESSIONID` cookie without
      its quotes. */
  lemma AuthCookiesGiveCsrf(c: Client, email: string, password: string, newSession: bool,
                            seed: Response, submit: Response)
    requires Login(c, email, password, newSession, seed, submit).outcome == Returned
    ensures var after := Login(c, email, password, newSession, seed, submit).client;
            && CsrfHeader in after.headers
            && after.headers[CsrfHeader] == Unquote(LastValue(submit.jar, SessionCookie).value)
            && LoggedIn(after, ProbeRaised).requests == [ProfileRequest]
  {
  }

  /** A challenge page with all its fields makes `login` raise
      `ChallengeException`, and then `enter_2fa` posts exactly the fourteen
      captured fields and the code. */
  lemma ChallengeThenCode(c: Client, email: string, password: string, newSession: bool,
                          seed: Response, submit: Response, code: string, verify: Response)
    requires seed.status == 200 && "loginCsrfParam" in seed.page.inputs && !HasAuthCookies(submit.jar)
    requires "challengeId" in submit.page.inputs && HasChallengeFields(submit.page.inputs)
    ensures Login(c, email, password, newSession, seed, submit).outcome == Threw(ChallengeException)
    ensures var form := Enter2fa(Login(c, email, password, newSession, seed, submit).client,
                                 code, verify).requests[0].form;
            && form.Keys == (set k | k in ChallengeFields) + {"language", "recognizedDevice", "pin"}
            && form["pin"] == code
            && (forall k :: k in ChallengeFields ==> form[k] == submit.page.inputs[k])
  {
    var s := Login(c, email, password, newSession, seed, submit);
    assert s.client.twoFactorPayload == Some(ChallengePayload(submit.page.inputs));
    PinForm(submit.page.inputs, code);
  }

  /** The verification form: the captured payload with the code added as `pin`,
      which is not one of the challenge fields. */
  lemma PinForm(inputs: map<string, string>, code: string)
    requires HasChallengeFields(inputs)
    ensures var form := ChallengePayload(inputs)["pin" := code];
            && form.Keys == (set k | k in ChallengeFields) + {"language", "recognizedDevice", "pin"}
            && form["pin"] == code
            && (forall k :: k in ChallengeFields ==> form[k] == inputs[k])
  {
    assert "pin" !in ChallengeFields;
  }

  /** A failed code may be retried: the payload is not discarded, so a second
      attempt posts the same form with the new code. */
  lemma RetryCode(c: Client, code1: string, verify1: Response, code2: string, verify2: Response)
    requires c.twoFactorPayload.Some?
    requires Enter2fa(c, code1, verify1).outcome != Returned
    ensures Enter2fa(Enter2fa(c, code1, verify1).client, code2, verify2).requests
            == [Post(VerifyUrl, c.twoFactorPayload.value["pin" := code2])]
  {
  }

  /** A failed login on a new session leaves no `csrf-token`, so logging out
      then succeeds without contacting the server. */
  lemma FailedNewSessionLogsOutLocally(c: Client, email: string, password: string,
                                       seed: Response, submit: Response, status: int)
    requires Login(c, email, password, true, seed, submit).outcome != Returned
    ensures Logout(Login(c, email, password, true, seed, submit).client, status) == Verdict(true, [])
  {
  }

  /** After a successful login whose session cookie is not just quotes, logging
      out sends that cookie's value as the `csrfToken` parameter. */
  lemma LoginThenLogout(c: Client, email: string, password: string, newSession: bool,
                        seed: Response, submit: Response, status: int)
    requires Login(c, email, password, newSession, seed, submit).outcome == Returned
    requires Unquote(LastValue(submit.jar, SessionCookie).value) != ""
    ensures Logout(Login(c, email, password, newSession, seed, submit).client, status).requests
            == [Get(LogoutUrl, map["csrfToken" := Text(Unquote(LastValue(submit.jar, SessionCookie).value))])]
  {
  }
}

=== FILE: strings.dfy ===
/** The Python string operations the client relies on, for a one-character
    separator: `s.split(sep)`, `sep.join(parts)`, `s.strip(chars)` and
    `s.startswith(p)`, together with the round-trip facts between them. */
module Strings {

  /** `s.split(sep)`: the maximal separator-free pieces between separators.
      Never empty: `"".split(",") == [""]`. */
  function Split(s: string, sep: char): (parts: seq<string>)
    ensures |parts| >= 1
    ensures forall i :: 0 <= i < |parts| ==> sep !in parts[i]
    decreases |s|
  {
    if |s| == 0 then [""]
    else
      var rest := Split(s[1..], sep);
      if s[0] == sep then [""] + rest
      else [[s[0]] + rest[0]] + rest[1..]
  }

  /** `sep.join(parts)`. */
  function Join(parts: seq<string>, sep: char): string
  {
    if |parts| == 0 then ""
    else if |parts| == 1 then parts[0]
    else parts[0] + [sep] + Join(parts[1..], sep)
  }

  /** `s.startswith(p)` */
  predicate StartsWith(s: string, p: string)
  {
    |p| <= |s| && s[..|p|] == p
  }

  /** `s.endswith(p)` */
  predicate EndsWith(s: string, p: string)
  {
    |p| <= |s| && s[|s| - |p|..] == p
  }

  /** `s.lstrip(chars)`: drops the longest prefix made of `chars`. */
  function StripLeft(s: string, chars: set<char>): (r: string)
    ensures |r| <= |s| && r == s[|s| - |r|..]
    ensures |r| == 0 || r[0] !in chars
    ensures forall i :: 0 <= i < |s| - |r| ==> s[i] in chars
    decreases |s|
  {
    if |s| > 0 && s[0] in chars then StripLeft(s[1..], chars) else s
  }

  /** `s.rstrip(chars)`: drops the longest suffix made of `chars`. */
  function StripRight(s: string, chars: set<char>): (r: string)
    ensures |r| <= |s| && r == s[..|r|]
    ensures |r| == 0 || r[|r| - 1] !in chars
    ensures forall i :: |r| <= i < |s| ==> s[i] in chars
    decreases |s|
  {
    if |s| > 0 && s[|s| - 1] in chars then StripRight(s[..|s| - 1], chars) else s
  }

  /** `s.strip(chars)` */
  function Strip(s: string, chars: set<char>): string
  {
    StripRight(StripLeft(s, chars), chars)
  }

  /** Python's `str(n)` for an integer. */
  function IntToDecimal(n: int): (r: string)
    ensures |r| >= 1
    ensures n >= 0 ==> forall i :: 0 <= i < |r| ==> '0' <= r[i] <= '9'
    ensures n < 0 ==> r[0] == '-'
  {
    if n < 0 then "-" + NatToDecimal(-n) else NatToDecimal(n)
  }

  function NatToDecimal(n: nat): (r: string)
    ensures |r| >= 1
    ensures forall i :: 0 <= i < |r| ==> '0' <= r[i] <= '9'
  {
    var d := ['0', '1', '2', '3', '4', '5', '6', '7', '8', '9'];
    if n < 10 then [d[n]] else NatToDecimal(n / 10) + [d[n % 10]]
  }

  // ---------------------------------------------------------------------------
  // Split and Join
  // ---------------------------------------------------------------------------

  /** Splitting a separator-free prefix glued to `b` extends the first piece of `b`. */
  lemma {:induction false} SplitPrefix(a: string, b: string, sep: char)
    requires sep !in a
    ensures Split(a + b, sep) == [a + Split(b, sep)[0]] + Split(b, sep)[1..]
    decreases |a|
  {
    if |a| > 0 {
      var parts := Split(b, sep);
      assert (a + b)[1..] == a[1..] + b;
      SplitPrefix(a[1..], b, sep);
      var rest := Split(a[1..] + b, sep);
      assert rest[0] == a[1..] + parts[0] && rest[1..] == parts[1..];
      assert (a + b)[0] == a[0] != sep;
      assert Split(a + b, sep) == [[a[0]] + rest[0]] + rest[1..];
      assert [a[0]] + (a[1..] + parts[0]) == a + parts[0];
    } else {
      var parts := Split(b, sep);
      assert a + b == b && a + parts[0] == parts[0];
      assert parts == [parts[0]] + parts[1..];
    }
  }

  /** A string without the separator splits into itself. */
  lemma SplitNoSep(s: string, sep: char)
    requires sep !in s
    ensures Split(s, sep) == [s]
  {
    SplitPrefix(s, "", sep);
    assert s + "" == s;
  }

  /** Joining what was split restores the string. */
  lemma {:induction false} JoinSplit(s: string, sep: char)
    ensures Join(Split(s, sep), sep) == s
    decreases |s|
  {
    if |s| > 0 {
      var rest := Split(s[1..], sep);
      JoinSplit(s[1..], sep);
      if s[0] == sep {
        assert Join([""] + rest, sep) == "" + [sep] + Join(rest, sep);
      } else if |rest| == 1 {
        assert Join(rest, sep) == rest[0];
      } else {
        var parts := [[s[0]] + rest[0]] + rest[1..];
        assert parts[1..] == rest[1..];
        assert Join(rest, sep) == rest[0] + [sep] + Join(rest[1..], sep);
      }
    }
  }

  /** Splitting what was joined restores the parts, when no part holds the
      separator. */
  lemma {:induction false} SplitJoin(parts: seq<string>, sep: char)
    requires |parts| >= 1
    requires forall i :: 0 <= i < |parts| ==> sep !in parts[i]
    ensures Split(Join(parts, sep), sep) == parts
    decreases |parts|
  {
    if |parts| == 1 {
      SplitNoSep(parts[0], sep);
    } else {
      var tail := Join(parts[1..], sep);
      SplitJoin(parts[1..], sep);
      assert [sep] + tail == [sep] + tail;
      assert ([sep] + tail)[1..] == tail;
      assert Split([sep] + tail, sep) == [""] + parts[1..];
      SplitPrefix(parts[0], [sep] + tail, sep);
      assert parts[0] + [sep] + tail == parts[0] + ([sep] + tail);
      assert parts[0] + "" == parts[0];
    }
  }

  /** Join distributes over concatenation of non-empty part lists. */
  lemma {:induction false} JoinAppend(p: seq<string>, q: seq<string>, sep: char)
    requires |p| >= 1 && |q| >= 1
    ensures Join(p + q, sep) == Join(p, sep) + [sep] + Join(q, sep)
    decreases |p|
  {
    if |p| > 1 {
      assert (p + q)[1..] == p[1..] + q;
      JoinAppend(p[1..], q, sep);
    } else {
      assert (p + q)[1..] == q;
    }
  }

  /** Splitting at a separator splits each side independently. */
  lemma SplitConcat(a: string, b: string, sep: char)
    ensures Split(a + [sep] + b, sep) == Split(a, sep) + Split(b, sep)
  {
    var p, q := Split(a, sep), Split(b, sep);
    JoinAppend(p, q, sep);
    JoinSplit(a, sep);
    JoinSplit(b, sep);
    forall i | 0 <= i < |p + q|
      ensures sep !in (p + q)[i]
    {
      if i >= |p| {
        assert (p + q)[i] == q[i - |p|];
      }
    }
    SplitJoin(p + q, sep);
  }

  /** A string holding the separator splits into at least two pieces. */
  lemma {:induction false} SplitSeveral(s: string, sep: char)
    requires sep in s
    ensures |Split(s, sep)| >= 2
    decreases |s|
  {
    if s[0] != sep {
      assert sep in s[1..];
      SplitSeveral(s[1..], sep);
    }
  }

  // ---------------------------------------------------------------------------
  // Strip
  // ---------------------------------------------------------------------------

  /** Stripping leaves a string alone whose ends are not in `chars`. */
  lemma StripUntouched(s: string, chars: set<char>)
    requires |s| == 0 || (s[0] !in chars && s[|s| - 1] !in chars)
    ensures Strip(s, chars) == s
  {
  }

  /** Stripping removes a wrapping made of `chars` around a string whose own
      ends are not in `chars`. */
  lemma StripWrapped(open: char, s: string, close: char, chars: set<char>)
    requires open in chars && close in chars
    requires |s| == 0 || (s[0] !in chars && s[|s| - 1] !in chars)
    ensures Strip([open] + s + [close], chars) == s
  {
    var w := [open] + s + [close];
    assert w[1..] == s + [close];
    if |s| == 0 {
      assert StripLeft(w, chars) == StripLeft([close], chars);
      assert [close][1..] == [];
    } else {
      assert StripLeft(s + [close], chars) == s + [close];
      assert (s + [close])[..|s|] == s;
    }
  }

  /** Left-stripping removes exactly a leading run of `chars`. */
  lemma {:induction false} StripLeftOf(lead: string, s: string, chars: set<char>)
    requires forall i :: 0 <= i < |lead| ==> lead[i] in chars
    requires |s| == 0 || s[0] !in chars
    ensures StripLeft(lead + s, chars) == s
    decreases |lead|
  {
    if |lead| > 0 {
      assert (lead + s)[1..] == lead[1..] + s;
      StripLeftOf(lead[1..], s, chars);
    } else {
      assert lead + s == s;
    }
  }

  /** Right-stripping removes exactly a trailing run of `chars`. */
  lemma {:induction false} StripRightOf(s: string, trail: string, chars: set<char>)
    requires forall i :: 0 <= i < |trail| ==> trail[i] in chars
    requires |s| == 0 || s[|s| - 1] !in chars
    ensures StripRight(s + trail, chars) == s
    decreases |trail|
  {
    if |trail| > 0 {
      var shorter := trail[..|trail| - 1];
      assert (s + trail)[..|s + trail| - 1] == s + shorter;
      StripRightOf(s, shorter, chars);
    } else {
      assert s + trail == s;
    }
  }

  /** Stripping removes runs of `chars` around a string whose own ends are
      not in `chars`, and nothing else. */
  lemma StripAround(lead: string, s: string, trail: string, chars: set<char>)
    requires forall i :: 0 <= i < |lead| ==> lead[i] in chars
    requires forall i :: 0 <= i < |trail| ==> trail[i] in chars
    requires |s| == 0 || (s[0] !in chars && s[|s| - 1] !in chars)
    ensures Strip(lead + s + trail, chars) == s
  {
    if |s| == 0 {
      assert lead + s + trail == (lead + trail) + "";
      StripLeftOf(lead + trail, "", chars);
    } else {
      assert lead + s + trail == lead + (s + trail);
      StripLeftOf(lead, s + trail, chars);
      StripRightOf(s, trail, chars);
    }
  }
}

=== FILE: style_check.dfy ===
/** The repository's TODO and version checker. A comment line starting with
    `# TODO` must name an issue, `TODO (#1)`, `TODO (project#1)` or
    `TODO (namespace/project#1)`, optionally with a colon after `TODO`; every
    `.py` argument is checked line by line, and when `CHANGELOG.md` is among
    the arguments its first line must announce the package version.

    The two regular expressions are written out as recognisers. Both are
    matched with `re.match`, so they are anchored at the start of the line
    and ignore whatever follows the matched prefix. `\s` is Python's
    whitespace, listed below; `\w` and `\d` depend on the Unicode database
    and are kept abstract in `CharClasses`. */
module StyleCheck {
  import opened Wrappers
  import opened Strings
  import opened Exceptions

  // ---------------------------------------------------------------------------
  // Character classes
  // ---------------------------------------------------------------------------

  /** The characters `\s` (and `str.isspace`, `str.split()`, `str.strip()`)
      treat as whitespace. */
  const Whitespace: set<char> := {
    '\t', '\n', '\U{B}', '\U{C}', '\r', '\U{1C}', '\U{1D}', '\U{1E}', '\U{1F}', ' ',
    '\U{85}', '\U{A0}', '\U{1680}',
    '\U{2000}', '\U{2001}', '\U{2002}', '\U{2003}', '\U{2004}', '\U{2005}',
    '\U{2006}', '\U{2007}', '\U{2008}', '\U{2009}', '\U{200A}',
    '\U{2028}', '\U{2029}', '\U{202F}', '\U{205F}', '\U{3000}'
  }

  predicate IsSpace(c: char)
  {
    c in Whitespace
  }

  predicate NotSpace(c: char)
  {
    c !in Whitespace
  }

  predicate AllSpace(s: string)
  {
    forall i :: 0 <= i < |s| ==> IsSpace(s[i])
  }

  /** Unicode `\w` and `\d`. */
  datatype CharClasses = CharClasses(word: char -> bool, digit: char -> bool)

  /** What the recognisers rely on about `\w` and `\d`, all true of Python's:
      `#` and `/` are not word characters and `)` is not a digit. */
  predicate Sane(cls: CharClasses)
  {
    !cls.word('#') && !cls.word('/') && !cls.digit(')')
  }

  /** `[\w-]`: a character of one path segment. */
  predicate SegmentChar(cls: CharClasses, c: char)
  {
    cls.word(c) || c == '-'
  }

  /** The character sets the recognisers take greedy runs of: `\s`, `\S`,
      the characters of a `[\w-]+(/[\w-]+)*` path, and `\d`. */
  datatype CharSet = Blank | NonBlank | PathChar(cls: CharClasses) | Digit(cls: CharClasses)

  predicate In(k: CharSet, c: char)
  {
    match k
    case Blank => IsSpace(c)
    case NonBlank => NotSpace(c)
    case PathChar(cls) => SegmentChar(cls, c) || c == '/'
    case Digit(cls) => cls.digit(c)
  }

  // ---------------------------------------------------------------------------
  // Scanning
  // ---------------------------------------------------------------------------

  /** The longest prefix of `s` made of characters in `k`, and the rest: what
      a greedy `k*` consumes. */
  function Span(s: string, k: CharSet): (r: (string, string))
    ensures r.0 + r.1 == s
    ensures forall i :: 0 <= i < |r.0| ==> In(k, r.0[i])
    ensures |r.1| == 0 || !In(k, r.1[0])
    decreases |s|
  {
    if |s| > 0 && In(k, s[0]) then
      var t := Span(s[1..], k);
      assert [s[0]] + t.0 + t.1 == [s[0]] + s[1..];
      ([s[0]] + t.0, t.1)
    else ("", s)
  }

  /** The greedy run is the only split into a run of `k` and a rest that does
      not start with `k`. */
  lemma {:induction false} SpanUnique(a: string, b: string, k: CharSet)
    requires forall i :: 0 <= i < |a| ==> In(k, a[i])
    requires |b| == 0 || !In(k, b[0])
    ensures Span(a + b, k) == (a, b)
    decreases |a|
  {
    if |a| > 0 {
      assert (a + b)[0] == a[0] && (a + b)[1..] == a[1..] + b;
      SpanUnique(a[1..], b, k);
      assert [a[0]] + a[1..] == a;
    } else {
      assert a + b == b;
    }
  }

  // ---------------------------------------------------------------------------
  // todo_re: \s*#\s*TODO:?\s*
  // ---------------------------------------------------------------------------

  /** A line split around the start of a TODO comment: leading whitespace,
      `#`, whitespace, `TODO`, and what comes after. */
  datatype TodoHead = TodoHead(lead: string, gap: string, after: string)

  /** The text of a head: `lead`, `#`, `gap`, `TODO`, `after`. */
  function HeadText(h: TodoHead): string
  {
    h.lead + ("#" + (h.gap + ("TODO" + h.after)))
  }

  predicate HeadOk(h: TodoHead)
  {
    AllSpace(h.lead) && AllSpace(h.gap)
  }

  /** `todo_re.match(line)`. The trailing `:?\s*` can always match the empty
      string, so it does not decide whether the line matches. */
  function MatchTodoHead(line: string): Option<TodoHead>
  {
    var (lead, s1) := Span(line, Blank);
    if |s1| == 0 || s1[0] != '#' then None
    else
      var (gap, s2) := Span(s1[1..], Blank);
      if !StartsWith(s2, "TODO") then None
      else Some(TodoHead(lead, gap, s2[4..]))
  }

  /** A match is whitespace, `#`, whitespace and `TODO`, then the rest. */
  lemma MatchTodoHeadSound(line: string, h: TodoHead)
    requires MatchTodoHead(line) == Some(h)
    ensures HeadOk(h) && HeadText(h) == line
  {
    var s1 := Span(line, Blank).1;
    var s2 := Span(s1[1..], Blank).1;
    assert s2 == "TODO" + h.after by {
      assert s2[..4] == "TODO";
    }
    assert s1[1..] == h.gap + s2;
    assert s1 == "#" + s1[1..];
  }

  /** Every line of the form whitespace, `#`, whitespace, `TODO`, anything
      matches, split exactly there. */
  lemma MatchTodoHeadComplete(h: TodoHead)
    requires HeadOk(h)
    ensures MatchTodoHead(HeadText(h)) == Some(h)
  {
    var s2 := "TODO" + h.after;
    var s1 := "#" + (h.gap + s2);
    SpanUnique(h.lead, s1, Blank);
    assert s1[1..] == h.gap + s2;
    SpanUnique(h.gap, s2, Blank);
    assert s2[..4] == "TODO" && s2[4..] == h.after;
  }

  // ---------------------------------------------------------------------------
  // accounted_for_todo: \s*#\s*TODO:?\s*\(([\w-]+(/[\w-]+)*)?#\d+\)
  // ---------------------------------------------------------------------------

  /** An issue reference `(path#number)`: the path is empty or `/`-separated
      segments. */
  datatype Issue = Issue(path: seq<string>, number: string)

  /** A TODO comment that names an issue, with the text after its `)`. */
  datatype TodoLine = TodoLine(lead: string, gap: string, colon: bool, space: string, issue: Issue, rest: string)

  predicate PathOk(cls: CharClasses, path: seq<string>)
  {
    forall i :: 0 <= i < |path| ==>
      |path[i]| > 0 && forall j :: 0 <= j < |path[i]| ==> SegmentChar(cls, path[i][j])
  }

  predicate IssueOk(cls: CharClasses, issue: Issue)
  {
    && PathOk(cls, issue.path)
    && |issue.number| > 0
    && forall k :: 0 <= k < |issue.number| ==> cls.digit(issue.number[k])
  }

  /** The accepted forms: whitespace where `\s*` stands, one or more digits,
      segments of `[\w-]`. */
  predicate WellFormed(cls: CharClasses, t: TodoLine)
  {
    AllSpace(t.lead) && AllSpace(t.gap) && AllSpace(t.space) && IssueOk(cls, t.issue)
  }

  function RenderIssue(issue: Issue): string
  {
    "(" + (Join(issue.path, '/') + ("#" + (issue.number + ")")))
  }

  function RenderTail(colon: bool, space: string, issue: Issue, rest: string): string
  {
    (if colon then ":" else "") + (space + (RenderIssue(issue) + rest))
  }

  /** The text of a TODO line. */
  function Render(t: TodoLine): string
  {
    HeadText(TodoHead(t.lead, t.gap, RenderTail(t.colon, t.space, t.issue, t.rest)))
  }

  /** The path of an issue reference from its text: none, or the
      `/`-separated segments. */
  function PathOf(pathText: string): seq<string>
  {
    if pathText == "" then [] else Split(pathText, '/')
  }

  /** `#\d+\)` at the start of `s`: the number and what follows the `)`. The
      number is the longest run of digits, since `)` is not one. */
  function ParseNumber(cls: CharClasses, s: string): Option<(string, string)>
  {
    if |s| == 0 || s[0] != '#' then None
    else
      var (number, s2) := Span(s[1..], Digit(cls));
      if |number| == 0 || |s2| == 0 || s2[0] != ')' then None
      else Some((number, s2[1..]))
  }

  /** `\(([\w-]+(/[\w-]+)*)?#\d+\)` at the start of `s`. The path is the
      longest run of path characters, since `#` is not one of them. */
  function ParseIssue(cls: CharClasses, s: string): Option<(Issue, string)>
  {
    if |s| == 0 || s[0] != '(' then None
    else
      var (pathText, s1) := Span(s[1..], PathChar(cls));
      if !PathOk(cls, PathOf(pathText)) then None
      else
        match ParseNumber(cls, s1)
        case None => None
        case Some((number, rest)) => Some((Issue(PathOf(pathText), number), rest))
  }

  /** `:?\s*` followed by an issue reference, after `TODO`. A `:` is taken
      when present; it is never whitespace, so the choice is forced. */
  function ParseTail(cls: CharClasses, after: string): Option<(bool, string, Issue, string)>
  {
    var colon := |after| > 0 && after[0] == ':';
    var (space, s) := Span(if colon then after[1..] else after, Blank);
    match ParseIssue(cls, s)
    case None => None
    case Some((issue, rest)) => Some((colon, space, issue, rest))
  }

  /** `accounted_for_todo.match(line)`, returning the parts it matched. */
  function ParseTodo(cls: CharClasses, line: string): Option<TodoLine>
  {
    match MatchTodoHead(line)
    case None => None
    case Some(h) =>
      match ParseTail(cls, h.after)
      case None => None
      case Some((colon, space, issue, rest)) => Some(TodoLine(h.lead, h.gap, colon, space, issue, rest))
  }

  /** Splitting a path text and joining it again gives the text back. */
  lemma JoinPathOf(pathText: string)
    ensures Join(PathOf(pathText), '/') == pathText
  {
    if pathText != "" {
      JoinSplit(pathText, '/');
    }
  }

  /** A joined `[\w-]`-path splits back into its segments. */
  lemma PathOfJoin(cls: CharClasses, path: seq<string>)
    requires Sane(cls) && PathOk(cls, path)
    ensures PathOf(Join(path, '/')) == path
  {
    if |path| == 0 {
      assert Join(path, '/') == "";
    } else {
      JoinNonEmpty(path);
      forall i | 0 <= i < |path|
        ensures '/' !in path[i]
      {
        assert forall j :: 0 <= j < |path[i]| ==> SegmentChar(cls, path[i][j]);
      }
      SplitJoin(path, '/');
    }
  }

  /** What `ParseNumber` accepts is `#`, digits and `)`, followed by the rest. */
  lemma ParseNumberSound(cls: CharClasses, s: string, number: string, rest: string)
    requires ParseNumber(cls, s) == Some((number, rest))
    ensures |number| > 0 && forall k :: 0 <= k < |number| ==> cls.digit(number[k])
    ensures s == "#" + (number + (")" + rest))
  {
    var (n, s2) := Span(s[1..], Digit(cls));
    assert n == number && s2 == ")" + rest;
  }

  /** Every `#digits)` is accepted, with exactly its own number. */
  lemma ParseNumberComplete(cls: CharClasses, number: string, rest: string)
    requires Sane(cls) && |number| > 0 && forall k :: 0 <= k < |number| ==> cls.digit(number[k])
    ensures ParseNumber(cls, "#" + (number + (")" + rest))) == Some((number, rest))
  {
    var s := "#" + (number + (")" + rest));
    assert s[1..] == number + (")" + rest);
    SpanUnique(number, ")" + rest, Digit(cls));
  }

  /** What `ParseIssue` accepts is a well-formed reference followed by the rest. */
  lemma ParseIssueSound(cls: CharClasses, s: string, issue: Issue, rest: string)
    requires ParseIssue(cls, s) == Some((issue, rest))
    ensures IssueOk(cls, issue)
    ensures RenderIssue(issue) + rest == s
  {
    var (pathText, s1) := Span(s[1..], PathChar(cls));
    assert ParseNumber(cls, s1) == Some((issue.number, rest)) && issue.path == PathOf(pathText);
    ParseNumberSound(cls, s1, issue.number, rest);
    JoinPathOf(pathText);
    assert s == "(" + (pathText + s1);
    assert RenderIssue(issue) + rest == "(" + (pathText + ("#" + (issue.number + (")" + rest))));
  }

  /** A `[\w-]`-path joined with `/` is a run of path characters. */
  lemma JoinPathChars(cls: CharClasses, path: seq<string>)
    requires PathOk(cls, path)
    ensures forall i :: 0 <= i < |Join(path, '/')| ==> In(PathChar(cls), Join(path, '/')[i])
    decreases |path|
  {
    if |path| > 1 {
      JoinPathChars(cls, path[1..]);
      var tail := Join(path[1..], '/');
      forall i | 0 <= i < |Join(path, '/')|
        ensures In(PathChar(cls), Join(path, '/')[i])
      {
        if i < |path[0]| {
          assert Join(path, '/')[i] == path[0][i];
        } else if i > |path[0]| {
          assert Join(path, '/')[i] == tail[i - |path[0]| - 1];
        }
      }
    } else if |path| == 1 {
      assert Join(path, '/') == path[0];
    }
  }

  /** A non-empty list of non-empty segments joins to a non-empty string. */
  lemma JoinNonEmpty(path: seq<string>)
    requires |path| >= 1 && |path[0]| > 0
    ensures |Join(path, '/')| > 0
  {
  }

  /** Every well-formed reference is accepted, with exactly its own parts. */
  lemma ParseIssueComplete(cls: CharClasses, issue: Issue, rest: string)
    requires Sane(cls) && IssueOk(cls, issue)
    ensures ParseIssue(cls, RenderIssue(issue) + rest) == Some((issue, rest))
  {
    var pathText := Join(issue.path, '/');
    var s1 := "#" + (issue.number + (")" + rest));
    var s := RenderIssue(issue) + rest;
    assert s == "(" + (pathText + s1);
    assert s[1..] == pathText + s1;
    JoinPathChars(cls, issue.path);
    SpanUnique(pathText, s1, PathChar(cls));
    PathOfJoin(cls, issue.path);
    ParseNumberComplete(cls, issue.number, rest);
  }

  /** What `ParseTail` accepts is an optional colon, whitespace and a
      well-formed reference, followed by the rest. */
  lemma ParseTailSound(cls: CharClasses, after: string, colon: bool, space: string, issue: Issue, rest: string)
    requires ParseTail(cls, after) == Some((colon, space, issue, rest))
    ensures AllSpace(space) && IssueOk(cls, issue)
    ensures RenderTail(colon, space, issue, rest) == after
  {
    var s0 := if colon then after[1..] else after;
    var s := Span(s0, Blank).1;
    assert ParseIssue(cls, s) == Some((issue, rest));
    ParseIssueSound(cls, s, issue, rest);
    assert s0 == space + (RenderIssue(issue) + rest);
    assert after == (if colon then ":" else "") + s0;
  }

  /** Every colon choice, whitespace and well-formed reference is accepted,
      with exactly its own parts. */
  lemma ParseTailComplete(cls: CharClasses, colon: bool, space: string, issue: Issue, rest: string)
    requires Sane(cls) && AllSpace(space) && IssueOk(cls, issue)
    ensures ParseTail(cls, RenderTail(colon, space, issue, rest)) == Some((colon, space, issue, rest))
  {
    var tail := RenderIssue(issue) + rest;
    assert tail[0] == '(';
    ColonTaken(colon, space, tail);
    SpanUnique(space, tail, Blank);
    ParseIssueComplete(cls, issue, rest);
  }

  /** What `accounted_for_todo` matches is a well-formed TODO line: the
      matched parts render back to the line. */
  lemma ParseTodoSound(cls: CharClasses, line: string, t: TodoLine)
    requires ParseTodo(cls, line) == Some(t)
    ensures WellFormed(cls, t)
    ensures Render(t) == line
  {
    var h := MatchTodoHead(line).value;
    MatchTodoHeadSound(line, h);
    assert ParseTail(cls, h.after) == Some((t.colon, t.space, t.issue, t.rest));
    ParseTailSound(cls, h.after, t.colon, t.space, t.issue, t.rest);
  }

  /** Every well-formed TODO line is matched, with exactly its own parts: the
      recogniser accepts the documented forms and nothing else. */
  lemma ParseTodoComplete(cls: CharClasses, t: TodoLine)
    requires Sane(cls) && WellFormed(cls, t)
    ensures ParseTodo(cls, Render(t)) == Some(t)
  {
    var h := TodoHead(t.lead, t.gap, RenderTail(t.colon, t.space, t.issue, t.rest));
    MatchTodoHeadComplete(h);
    ParseTailComplete(cls, t.colon, t.space, t.issue, t.rest);
  }

  /** Text appended to a TODO line lands after its issue reference. */
  lemma RenderAppend(t: TodoLine, extra: string)
    ensures Render(t.(rest := t.rest + extra)) == Render(t) + extra
  {
    var t' := t.(rest := t.rest + extra);
    assert RenderIssue(t.issue) + t'.rest == (RenderIssue(t.issue) + t.rest) + extra;
    assert RenderTail(t'.colon, t'.space, t'.issue, t'.rest) == RenderTail(t.colon, t.space, t.issue, t.rest) + extra;
  }

  /** Text after the closing `)` of an accepted TODO does not matter. */
  lemma SuffixIrrelevant(cls: CharClasses, line: string, extra: string)
    requires Sane(cls)
    requires ParseTodo(cls, line).Some?
    ensures ParseTodo(cls, line + extra).Some?
  {
    var t := ParseTodo(cls, line).value;
    ParseTodoSound(cls, line, t);
    RenderAppend(t, extra);
    ParseTodoComplete(cls, t.(rest := t.rest + extra));
  }

  // ---------------------------------------------------------------------------
  // One line, one file
  // ---------------------------------------------------------------------------

  /** The condition under which `check_file` reports a line. */
  predicate Flagged(cls: CharClasses, line: string)
  {
    MatchTodoHead(line).Some? && ParseTodo(cls, line).None?
  }

  /** A line is flagged exactly when it starts a TODO comment that is not
      any well-formed TODO line. */
  lemma FlaggedIff(cls: CharClasses, line: string)
    requires Sane(cls)
    ensures Flagged(cls, line) ==>
              MatchTodoHead(line).Some? && forall t :: WellFormed(cls, t) ==> Render(t) != line
    ensures !Flagged(cls, line) ==>
              MatchTodoHead(line).None? || exists t :: WellFormed(cls, t) && Render(t) == line
  {
    if Flagged(cls, line) {
      forall t | WellFormed(cls, t)
        ensures Render(t) != line
      {
        ParseTodoComplete(cls, t);
      }
    } else if MatchTodoHead(line).Some? {
      var t := ParseTodo(cls, line).value;
      ParseTodoSound(cls, line, t);
      assert WellFormed(cls, t) && Render(t) == line;
    }
  }

  /** A TODO comment after code on the same line is never flagged: only lines
      whose first non-blank character is `#` are candidates. */
  lemma TrailingTodoNotFlagged(cls: CharClasses, lead: string, code: string, comment: string)
    requires AllSpace(lead)
    requires |code| > 0 && NotSpace(code[0]) && code[0] != '#'
    ensures !Flagged(cls, lead + code + comment)
  {
    var s := code + comment;
    assert lead + code + comment == lead + s && s[0] == code[0];
    SpanUnique(lead, s, Blank);
    assert MatchTodoHead(lead + code + comment).None?;
  }

  /** A well-formed TODO line is never reported. */
  lemma WellFormedNotFlagged(cls: CharClasses, t: TodoLine)
    requires Sane(cls) && WellFormed(cls, t)
    ensures !Flagged(cls, Render(t))
  {
    ParseTodoComplete(cls, t);
  }

  /** The documented forms are accepted; `1` stands for a digit and `p` for
      a word character. */
  lemma AcceptsBareIssue(cls: CharClasses)
    requires Sane(cls) && cls.digit('1')
    ensures !Flagged(cls, "# TODO (#1)\n")
  {
    var t := TodoLine("", " ", false, " ", Issue([], "1"), "\n");
    assert Render(t) == "# TODO (#1)\n";
    assert WellFormed(cls, t);
    WellFormedNotFlagged(cls, t);
  }

  lemma AcceptsProjectIssue(cls: CharClasses)
    requires Sane(cls) && cls.word('p') && cls.digit('1')
    ensures !Flagged(cls, "# TODO: (p#1)")
  {
    var t := TodoLine("", " ", true, " ", Issue(["p"], "1"), "");
    assert Render(t) == "# TODO: (p#1)";
    assert WellFormed(cls, t);
    WellFormedNotFlagged(cls, t);
  }

  lemma AcceptsNamespacedIssue(cls: CharClasses, project: string, sub: string, number: string)
    requires Sane(cls) && PathOk(cls, [project, sub])
    requires |number| > 0 && forall k :: 0 <= k < |number| ==> cls.digit(number[k])
    ensures !Flagged(cls, "# TODO (" + project + "/" + sub + "#" + number + ")")
  {
    var t := TodoLine("", " ", false, " ", Issue([project, sub], number), "");
    assert Join([project, sub], '/') == project + "/" + sub;
    assert Render(t) == "# TODO (" + project + "/" + sub + "#" + number + ")";
    assert WellFormed(cls, t);
    WellFormedNotFlagged(cls, t);
  }

  /** A TODO whose text, after an optional colon and whitespace, does not
      open a parenthesis (and is not a colon the parser would take) is
      flagged. */
  lemma NoIssueFlagged(cls: CharClasses, lead: string, gap: string, colon: bool, space: string, text: string)
    requires AllSpace(lead) && AllSpace(gap) && AllSpace(space)
    requires |text| == 0 || (text[0] != '(' && text[0] != ':' && NotSpace(text[0]))
    ensures Flagged(cls, HeadText(TodoHead(lead, gap, (if colon then ":" else "") + (space + text))))
  {
    var after := (if colon then ":" else "") + (space + text);
    MatchTodoHeadComplete(TodoHead(lead, gap, after));
    ColonTaken(colon, space, text);
    SpanUnique(space, text, Blank);
  }

  /** The optional colon is taken exactly when it was written, provided what
      follows it does not start with another colon. */
  lemma ColonTaken(colon: bool, space: string, text: string)
    requires AllSpace(space)
    requires |space| > 0 || |text| == 0 || text[0] != ':'
    ensures var after := (if colon then ":" else "") + (space + text);
            && (|after| > 0 && after[0] == ':') == colon
            && (if colon then after[1..] else after) == space + text
  {
    var after := (if colon then ":" else "") + (space + text);
    if !colon && |space| > 0 {
      assert after[0] == space[0] && IsSpace(space[0]);
    } else if !colon && |text| > 0 {
      assert after[0] == text[0];
    }
  }

  /** Whether a file passes: no line is flagged. */
  predicate FileValid(cls: CharClasses, lines: seq<string>)
  {
    forall i :: 0 <= i < |lines| ==> !Flagged(cls, lines[i])
  }

  /** The loop of `check_file` for any line test: the numbers (from 1) of
      the lines that fail it, in order, and whether there were none. */
  method ReportLines(lines: seq<string>, bad: string -> bool) returns (valid: bool, reported: seq<nat>)
    ensures valid <==> forall i :: 0 <= i < |lines| ==> !bad(lines[i])
    ensures valid <==> |reported| == 0
    ensures forall n :: n in reported <==> 1 <= n <= |lines| && bad(lines[n - 1])
    ensures forall a, b :: 0 <= a < b < |reported| ==> reported[a] < reported[b]
  {
    valid, reported := true, [];
    var i := 0;
    while i < |lines|
      invariant 0 <= i <= |lines|
      invariant valid <==> |reported| == 0
      invariant valid <==> forall j :: 0 <= j < i ==> !bad(lines[j])
      invariant forall n :: n in reported <==> 1 <= n <= i && bad(lines[n - 1])
      invariant forall a, b :: 0 <= a < b < |reported| ==> reported[a] < reported[b]
      invariant forall a :: 0 <= a < |reported| ==> reported[a] <= i
    {
      if bad(lines[i]) {
        reported := reported + [i + 1];
        valid := false;
      }
      i := i + 1;
    }
  }

  /** `check_file`: reports the numbers of the flagged lines in order, and
      passes exactly when no line is flagged. */
  method CheckFile(cls: CharClasses, lines: seq<string>) returns (valid: bool, reported: seq<nat>)
    ensures valid <==> FileValid(cls, lines)
    ensures valid <==> |reported| == 0
    ensures forall n :: n in reported <==> 1 <= n <= |lines| && Flagged(cls, lines[n - 1])
    ensures forall a, b :: 0 <= a < b < |reported| ==> reported[a] < reported[b]
  {
    valid, reported := ReportLines(lines, line => Flagged(cls, line));
  }

  // ---------------------------------------------------------------------------
  // The whole run
  // ---------------------------------------------------------------------------

  /** The `.py` arguments after the program name all pass. `contents` gives
      the lines of the file at each path. */
  predicate AllFilesValid(cls: CharClasses, argv: seq<string>, contents: string -> seq<string>)
  {
    forall i :: 1 <= i < |argv| && EndsWith(argv[i], ".py") ==> FileValid(cls, contents(argv[i]))
  }

  /** `valid &= check_file(path)` over the paths ending in `.py`, in order. */
  predicate Conjoined(cls: CharClasses, paths: seq<string>, contents: string -> seq<string>)
    decreases |paths|
  {
    if |paths| == 0 then true
    else
      var last := paths[|paths| - 1];
      Conjoined(cls, paths[..|paths| - 1], contents) && (EndsWith(last, ".py") ==> FileValid(cls, contents(last)))
  }

  /** The paths ending in `.py`, in their order, repeats kept. */
  function PyPaths(paths: seq<string>): (r: seq<string>)
    ensures |r| <= |paths|
    ensures forall i :: 0 <= i < |r| ==> EndsWith(r[i], ".py")
    decreases |paths|
  {
    if |paths| == 0 then []
    else
      var last := paths[|paths| - 1];
      PyPaths(paths[..|paths| - 1]) + (if EndsWith(last, ".py") then [last] else [])
  }

  /** A path is among the `.py` paths exactly when it is one of the paths and
      ends in `.py`. */
  lemma {:induction false} PyPathsMembers(paths: seq<string>, p: string)
    ensures p in PyPaths(paths) <==> exists i :: 0 <= i < |paths| && paths[i] == p && EndsWith(p, ".py")
    decreases |paths|
  {
    if |paths| > 0 {
      var front := paths[..|paths| - 1];
      PyPathsMembers(front, p);
      assert forall i :: 0 <= i < |front| ==> front[i] == paths[i];
      if exists i :: 0 <= i < |paths| && paths[i] == p && EndsWith(p, ".py") {
        var i :| 0 <= i < |paths| && paths[i] == p && EndsWith(p, ".py");
        if i < |front| {
          assert front[i] == p;
        }
      }
    }
  }

  /** The accumulated flag is the conjunction over all `.py` paths. */
  lemma {:induction false} ConjoinedIff(cls: CharClasses, paths: seq<string>, contents: string -> seq<string>)
    ensures Conjoined(cls, paths, contents) <==>
              forall i :: 0 <= i < |paths| && EndsWith(paths[i], ".py") ==> FileValid(cls, contents(paths[i]))
    decreases |paths|
  {
    if |paths| > 0 {
      var front := paths[..|paths| - 1];
      ConjoinedIff(cls, front, contents);
      assert forall i :: 0 <= i < |front| ==> front[i] == paths[i];
    }
  }

  /** The loop over `sys.argv[1:]`: every argument ending in `.py` is
      checked, even after a failure, and the run passes when all of them do.
      Returns the paths checked, in order. */
  method CheckArguments(cls: CharClasses, argv: seq<string>, contents: string -> seq<string>)
      returns (valid: bool, checked: seq<string>)
    ensures valid <==> AllFilesValid(cls, argv, contents)
    ensures checked == PyPaths(if |argv| == 0 then [] else argv[1..])
    ensures forall p :: p in checked <==> exists i :: 1 <= i < |argv| && argv[i] == p && EndsWith(p, ".py")
  {
    var args := if |argv| == 0 then [] else argv[1..];
    valid, checked := true, [];
    var i := 0;
    while i < |args|
      invariant 0 <= i <= |args|
      invariant valid == Conjoined(cls, args[..i], contents)
      invariant checked == PyPaths(args[..i])
    {
      assert args[..i + 1][..i] == args[..i];
      if EndsWith(args[i], ".py") {
        var ok, _ := CheckFile(cls, contents(args[i]));
        valid := valid && ok;
        checked := checked + [args[i]];
      }
      i := i + 1;
    }
    assert args[..i] == args;
    ConjoinedIff(cls, args, contents);
    assert forall j :: 1 <= j < |argv| ==> argv[j] == args[j - 1];
    forall p
      ensures p in checked <==> exists j :: 1 <= j < |argv| && argv[j] == p && EndsWith(p, ".py")
    {
      PyPathsMembers(args, p);
      if exists j :: 0 <= j < |args| && args[j] == p && EndsWith(p, ".py") {
        var j :| 0 <= j < |args| && args[j] == p && EndsWith(p, ".py");
        assert argv[j + 1] == p;
      }
    }
  }

  /** The first word of `s` and the text after it, if `s` is not blank. */
  function NextWord(s: string): (r: Option<(string, string)>)
    ensures r.Some? ==> |r.value.1| < |s| && |r.value.0| > 0
    ensures r.Some? ==> forall j :: 0 <= j < |r.value.0| ==> NotSpace(r.value.0[j])
  {
    var t := Span(s, Blank).1;
    if |t| == 0 then None
    else
      var (w, u) := Span(t, NonBlank);
      assert |w| > 0;
      Some((w, u))
  }

  /** `line.split()`: the maximal runs of non-whitespace characters. */
  function Words(s: string): (ws: seq<string>)
    ensures forall i :: 0 <= i < |ws| ==> |ws[i]| > 0 && forall j :: 0 <= j < |ws[i]| ==> NotSpace(ws[i][j])
    decreases |s|
  {
    match NextWord(s)
    case None => []
    case Some((w, u)) => [w] + Words(u)
  }

  /** Blank text has no words. */
  lemma WordsBlank(s: string)
    requires AllSpace(s)
    ensures Words(s) == []
  {
    SpanUnique(s, "", Blank);
    assert s + "" == s;
    assert NextWord(s) == None;
  }

  /** Leading whitespace, then a word, then a break: that word is next. */
  lemma NextWordCons(blank: string, w: string, rest: string)
    requires AllSpace(blank)
    requires |w| > 0 && forall j :: 0 <= j < |w| ==> NotSpace(w[j])
    requires |rest| == 0 || IsSpace(rest[0])
    ensures NextWord(blank + w + rest) == Some((w, rest))
  {
    assert blank + w + rest == blank + (w + rest);
    SpanUnique(blank, w + rest, Blank);
    assert (w + rest)[0] == w[0];
    SpanUnique(w, rest, NonBlank);
  }

  /** Leading whitespace, then a word, then a break: the word comes first. */
  lemma WordsCons(blank: string, w: string, rest: string)
    requires AllSpace(blank)
    requires |w| > 0 && forall j :: 0 <= j < |w| ==> NotSpace(w[j])
    requires |rest| == 0 || IsSpace(rest[0])
    ensures Words(blank + w + rest) == [w] + Words(rest)
  {
    NextWordCons(blank, w, rest);
  }

  /** A word followed by a break comes first. */
  lemma WordsFront(w: string, rest: string)
    requires |w| > 0 && forall j :: 0 <= j < |w| ==> NotSpace(w[j])
    requires |rest| == 0 || IsSpace(rest[0])
    ensures Words(w + rest) == [w] + Words(rest)
  {
    assert "" + w + rest == w + rest;
    NextWordCons("", w, rest);
  }

  /** An assignment line `name = value`, whatever whitespace surrounds the
      `=` and ends the line, splits into the name, `=` and the value: its last
      word is the value as written. */
  lemma AssignmentWords(name: string, sp1: string, sp2: string, v: string, trail: string)
    requires |name| > 0 && forall j :: 0 <= j < |name| ==> NotSpace(name[j])
    requires |v| > 0 && forall j :: 0 <= j < |v| ==> NotSpace(v[j])
    requires |sp1| > 0 && AllSpace(sp1) && |sp2| > 0 && AllSpace(sp2) && AllSpace(trail)
    ensures Words(name + (sp1 + "=" + (sp2 + v + trail))) == [name, "=", v]
  {
    var r2 := sp1 + "=" + (sp2 + v + trail);
    ValueWords(sp1, sp2, v, trail);
    WordsFront(name, r2);
  }

  lemma ValueWords(sp1: string, sp2: string, v: string, trail: string)
    requires |v| > 0 && forall j :: 0 <= j < |v| ==> NotSpace(v[j])
    requires |sp1| > 0 && AllSpace(sp1) && |sp2| > 0 && AllSpace(sp2) && AllSpace(trail)
    ensures Words(sp1 + "=" + (sp2 + v + trail)) == ["=", v]
  {
    var r3 := sp2 + v + trail;
    assert Words(r3) == [v] by {
      WordsBlank(trail);
      WordsCons(sp2, v, trail);
    }
    WordsCons(sp1, "=", r3);
  }

  /** Text starting with a non-blank character has a first word. */
  lemma WordsStart(s: string)
    requires |s| > 0 && NotSpace(s[0])
    ensures |Words(s)| > 0
  {
    SpanUnique("", s, Blank);
    assert "" + s == s;
    assert NextWord(s).Some?;
  }

  const VersionMarker := "__version__"

  /** The version loop over `linkedin_messaging/__init__.py`: the first line
      starting with `__version__` is evaluated from its last word (`evaluate`
      stands for `eval` and gives the text the value formats to); without
      such a line an `AssertionError` is raised. */
  function FindVersion(initLines: seq<string>, evaluate: string -> Result<string, Raised>): Result<string, Raised>
    decreases |initLines|
  {
    if |initLines| == 0 then Failure(AssertionError("No version in linkedin_messaging/__init__.py"))
    else if StartsWith(initLines[0], VersionMarker) then
      var ws := Words(initLines[0]);
      assert initLines[0][0] == '_';
      WordsStart(initLines[0]);
      evaluate(ws[|ws| - 1])
    else FindVersion(initLines[1..], evaluate)
  }

  /** The first `__version__` line decides the version; later ones are ignored. */
  lemma {:induction false} FindVersionFirst(initLines: seq<string>, i: nat, evaluate: string -> Result<string, Raised>)
    requires i < |initLines| && StartsWith(initLines[i], VersionMarker)
    requires forall j :: 0 <= j < i ==> !StartsWith(initLines[j], VersionMarker)
    ensures |Words(initLines[i])| > 0
    ensures FindVersion(initLines, evaluate) == evaluate(Words(initLines[i])[|Words(initLines[i])| - 1])
    decreases i
  {
    if i > 0 {
      assert !StartsWith(initLines[0], VersionMarker);
      FindVersionFirst(initLines[1..], i - 1, evaluate);
    } else {
      assert FindVersion(initLines, evaluate) == evaluate(Words(initLines[0])[|Words(initLines[0])| - 1]);
    }
  }

  /** Without a `__version__` line the check raises. */
  lemma {:induction false} FindVersionMissing(initLines: seq<string>, evaluate: string -> Result<string, Raised>)
    requires forall j :: 0 <= j < |initLines| ==> !StartsWith(initLines[j], VersionMarker)
    ensures FindVersion(initLines, evaluate) == Failure(AssertionError("No version in linkedin_messaging/__init__.py"))
    decreases |initLines|
  {
    if |initLines| > 0 {
      FindVersionMissing(initLines[1..], evaluate);
    }
  }

  /** The first line of `CHANGELOG.md` (as `readline` returns it, `""` for an
      empty file), stripped, must read `# v` and the version. */
  function ChangelogCheck(firstLine: string, version: string): Result<(), Raised>
  {
    if Strip(firstLine, Whitespace) == "# v" + version then Success(())
    else Failure(AssertionError("Version mismatch: CHANGELOG"))
  }

  /** A first line that passes is `# v<version>` with only whitespace
      around it. */
  lemma ChangelogCheckSound(firstLine: string, version: string)
    requires ChangelogCheck(firstLine, version).Success?
    ensures exists k, m :: 0 <= k <= m <= |firstLine|
              && AllSpace(firstLine[..k]) && AllSpace(firstLine[m..])
              && firstLine[k..m] == "# v" + version
  {
    var l := StripLeft(firstLine, Whitespace);
    var k := |firstLine| - |l|;
    var m := k + |StripRight(l, Whitespace)|;
    assert firstLine[k..m] == StripRight(l, Whitespace);
    assert AllSpace(firstLine[..k]);
    assert forall i :: m <= i < |firstLine| ==> firstLine[i] == l[i - k];
    assert AllSpace(firstLine[m..]);
  }

  /** `# v<version>` passes with any whitespace around it, for a version that
      does not itself end in whitespace. */
  lemma ChangelogCheckComplete(lead: string, version: string, trail: string)
    requires AllSpace(lead) && AllSpace(trail)
    requires |version| == 0 || NotSpace(version[|version| - 1])
    ensures ChangelogCheck(lead + ("# v" + version) + trail, version).Success?
  {
    var s := "# v" + version;
    assert s[0] == '#' && s[|s| - 1] !in Whitespace;
    StripAround(lead, s, trail, Whitespace);
  }

  /** The CHANGELOG step: find the version, then compare the first line. */
  function VersionCheck(initLines: seq<string>, changelogFirstLine: string,
                        evaluate: string -> Result<string, Raised>): Result<(), Raised>
  {
    match FindVersion(initLines, evaluate)
    case Failure(e) => Failure(e)
    case Success(version) => ChangelogCheck(changelogFirstLine, version)
  }

  /** How the script ends: `sys.exit(status)`, or an uncaught exception. */
  datatype Outcome = Exited(status: int) | Uncaught(error: Raised)

  /** The process exit status; an uncaught exception exits with 1. */
  function ExitStatus(o: Outcome): int
  {
    match o
    case Exited(s) => s
    case Uncaught(_) => 1
  }

  /** The script: checks the `.py` arguments, then, when `CHANGELOG.md` is
      one of the arguments (the program name included), the version. */
  method Run(cls: CharClasses, argv: seq<string>, contents: string -> seq<string>,
             initLines: seq<string>, changelogFirstLine: string,
             evaluate: string -> Result<string, Raised>) returns (o: Outcome)
    ensures "CHANGELOG.md" in argv && VersionCheck(initLines, changelogFirstLine, evaluate).Failure? ==>
              o == Uncaught(VersionCheck(initLines, changelogFirstLine, evaluate).error)
    ensures "CHANGELOG.md" !in argv || VersionCheck(initLines, changelogFirstLine, evaluate).Success? ==>
              o == Exited(if AllFilesValid(cls, argv, contents) then 0 else 1)
    ensures ExitStatus(o) == 0 <==>
              && AllFilesValid(cls, argv, contents)
              && ("CHANGELOG.md" !in argv || VersionCheck(initLines, changelogFirstLine, evaluate).Success?)
  {
    var valid, _ := CheckArguments(cls, argv, contents);
    if "CHANGELOG.md" in argv {
      var check := VersionCheck(initLines, changelogFirstLine, evaluate);
      if check.Failure? {
        return Uncaught(check.error);
      }
    }
    o := Exited(if valid then 0 else 1);
  }
}

=== FILE: urn.dfy ===
/** URN identifiers as the client reads and writes them: a colon-joined
    namespace prefix and one or more comma-separated id parts, the parts
    written inside parentheses when there are several
    (`urn:li:fs_event:(2-abc,5-def)`). */
module Urn {
  import opened Wrappers
  import opened Strings
  import opened Exceptions

  /** A URN after parsing. Equality in the client is `Equals` below, which
      looks at `idParts` only. */
  datatype URN = URN(prefix: string, idParts: seq<string>)

  /** The characters stripped from both ends of the last segment. */
  const Parens: set<char> := {'(', ')'}

  /** An id part that prints and parses back unchanged. */
  predicate PlainId(p: string)
  {
    ':' !in p && ',' !in p && '(' !in p && ')' !in p
  }

  /** A URN whose printed form parses back to itself. */
  predicate Printable(u: URN)
  {
    |u.idParts| >= 1 && forall i :: 0 <= i < |u.idParts| ==> PlainId(u.idParts[i])
  }

  /** The constructor: the prefix is every `:`-segment but the last, joined
      again with `:`; the id parts are the last segment with its surrounding
      parentheses stripped, split on `,`. */
  function Parse(s: string): (u: URN)
    ensures |u.idParts| >= 1
    ensures forall i :: 0 <= i < |u.idParts| ==> ',' !in u.idParts[i]
  {
    var segments := Split(s, ':');
    URN(Join(segments[..|segments| - 1], ':'),
        Split(Strip(segments[|segments| - 1], Parens), ','))
  }

  /** `get_id`: asserts there is exactly one id part and returns it. */
  function GetId(u: URN): (r: Result<string, Raised>)
    ensures r.Success? <==> |u.idParts| == 1
    ensures r.Success? ==> r.value == u.idParts[0]
  {
    if |u.idParts| == 1 then Success(u.idParts[0])
    else Failure(AssertionError(""))
  }

  /** `id_str`: the id parts joined with `,`; `hash` of a URN is the hash of
      this string. */
  function IdStr(u: URN): string
  {
    Join(u.idParts, ',')
  }

  /** `str(u)`: `prefix:id` for a single part, `prefix:(a,b,...)` otherwise. */
  function Show(u: URN): string
  {
    u.prefix + ":" + (if |u.idParts| == 1 then u.idParts[0] else "(" + IdStr(u) + ")")
  }

  /** The right-hand side of `==`: Python compares a URN with any object. */
  datatype Object = AUrn(urn: URN) | NotAUrn

  /** `__eq__`: another URN with the same id parts; the prefix is ignored. */
  function Equals(u: URN, other: Object): (r: bool)
    ensures other.NotAUrn? ==> !r
    ensures r ==> IdStr(u) == IdStr(other.urn)
  {
    other.AUrn? && u.idParts == other.urn.idParts
  }

  /** The field decoder: an absent or empty string decodes to `None`. */
  function DecodeField(s: Option<string>): (u: Option<URN>)
    ensures u.Some? <==> s.Some? && s.value != ""
    ensures u.Some? ==> u.value == Parse(s.value)
  {
    match s
    case Some(text) => if text == "" then None else Some(Parse(text))
    case None => None
  }

  /** The field encoder: a URN is always truthy, so it encodes to `str(u)`. */
  function EncodeField(u: Option<URN>): (s: Option<string>)
    ensures s.Some? <==> u.Some?
    ensures s.Some? ==> s.value == Show(u.value) && |s.value| > 0
  {
    match u
    case Some(v) => Some(Show(v))
    case None => None
  }

  // ---------------------------------------------------------------------------
  // Parsing
  // ---------------------------------------------------------------------------

  /** Joining parts that avoid a character other than the separator avoids it too. */
  lemma {:induction false} JoinAvoids(parts: seq<string>, sep: char, c: char)
    requires c != sep
    requires forall i :: 0 <= i < |parts| ==> c !in parts[i]
    ensures c !in Join(parts, sep)
    decreases |parts|
  {
    if |parts| > 1 {
      JoinAvoids(parts[1..], sep, c);
    }
  }

  /** The prefix is everything before the LAST colon and the id parts come from
      everything after it. */
  lemma ParseAtLastColon(prefix: string, tail: string)
    requires ':' !in tail
    ensures Parse(prefix + ":" + tail) == URN(prefix, Split(Strip(tail, Parens), ','))
  {
    var segments := Split(prefix + ":" + tail, ':');
    SplitConcat(prefix, tail, ':');
    SplitNoSep(tail, ':');
    var front := Split(prefix, ':');
    assert segments == front + [tail];
    assert segments[..|segments| - 1] == front;
    JoinSplit(prefix, ':');
  }

  /** Without a colon the prefix is empty and the whole string is the id text. */
  lemma ParseWithoutColon(s: string)
    requires ':' !in s
    ensures Parse(s) == URN("", Split(Strip(s, Parens), ','))
    ensures ',' !in s && (|s| == 0 || (s[0] !in Parens && s[|s| - 1] !in Parens))
            ==> Parse(s) == URN("", [s])
  {
    SplitNoSep(s, ':');
    if ',' !in s && (|s| == 0 || (s[0] !in Parens && s[|s| - 1] !in Parens)) {
      StripUntouched(s, Parens);
      SplitNoSep(s, ',');
    }
  }

  // ---------------------------------------------------------------------------
  // Round trips
  // ---------------------------------------------------------------------------

  /** Printing then parsing gives back the same URN, for any prefix, when no id
      part holds `:`, `,`, `(` or `)`. */
  lemma ParseShow(u: URN)
    requires Printable(u)
    ensures Parse(Show(u)) == u
  {
    if |u.idParts| == 1 {
      ParseShowSingle(u);
    } else {
      ParseShowMany(u);
    }
  }

  lemma ParseShowSingle(u: URN)
    requires Printable(u) && |u.idParts| == 1
    ensures Parse(Show(u)) == u
  {
    assert PlainId(u.idParts[0]);
    assert Show(u) == u.prefix + ":" + u.idParts[0];
    ParseShowOne(u.prefix, u.idParts[0]);
    assert u == URN(u.prefix, [u.idParts[0]]);
  }

  lemma ParseShowOne(prefix: string, id: string)
    requires PlainId(id)
    ensures Parse(prefix + ":" + id) == URN(prefix, [id])
  {
    ParseAtLastColon(prefix, id);
    StripUntouched(id, Parens);
    SplitNoSep(id, ',');
  }

  lemma ParseShowMany(u: URN)
    requires Printable(u) && |u.idParts| > 1
    ensures Parse(Show(u)) == u
  {
    var j := IdStr(u);
    JoinAvoids(u.idParts, ',', ':');
    JoinAvoids(u.idParts, ',', '(');
    JoinAvoids(u.idParts, ',', ')');
    var tail := ['('] + j + [')'];
    assert Show(u) == u.prefix + ":" + tail;
    ParseAtLastColon(u.prefix, tail);
    StripWrapped('(', j, ')', Parens);
    SplitJoin(u.idParts, ',');
  }

  /** A single-part URN text prints back exactly as it was written. */
  lemma ShowParseSingle(prefix: string, id: string)
    requires PlainId(id)
    ensures Show(Parse(prefix + ":" + id)) == prefix + ":" + id
  {
    ParseShowOne(prefix, id);
  }

  /** A multi-part URN text `prefix:(a,b,...)` prints back exactly as it was
      written: several parts always print inside parentheses. */
  lemma ShowParseMulti(prefix: string, ids: string)
    requires ',' in ids && ':' !in ids && '(' !in ids && ')' !in ids
    ensures Show(Parse(prefix + ":(" + ids + ")")) == prefix + ":(" + ids + ")"
  {
    var tail := "(" + ids + ")";
    assert prefix + ":(" + ids + ")" == prefix + ":" + tail;
    assert tail == ['('] + ids + [')'];
    ParseAtLastColon(prefix, tail);
    StripWrapped('(', ids, ')', Parens);
    SplitSeveral(ids, ',');
    JoinSplit(ids, ',');
  }

  /** The field encoder and decoder are inverse on printable URNs. */
  lemma DecodeEncode(u: URN)
    requires Printable(u)
    ensures DecodeField(EncodeField(Some(u))) == Some(u)
  {
    ParseShow(u);
  }

  /** `get_id` on a parsed single-part URN returns the text after the last colon. */
  lemma GetIdOfParsed(prefix: string, id: string)
    requires PlainId(id)
    ensures GetId(Parse(prefix + ":" + id)) == Success(id)
  {
    ParseShowOne(prefix, id);
  }

  // ---------------------------------------------------------------------------
  // Equality and hashing
  // ---------------------------------------------------------------------------

  /** `==` on URNs is an equivalence relation that ignores the prefix. */
  lemma EqualsIsEquivalence(a: URN, b: URN, c: URN, p: string)
    ensures Equals(a, AUrn(a))
    ensures Equals(a, AUrn(b)) == Equals(b, AUrn(a))
    ensures Equals(a, AUrn(b)) && Equals(b, AUrn(c)) ==> Equals(a, AUrn(c))
    ensures Equals(a, AUrn(a.(prefix := p)))
  {
  }

  /** Equal URNs hash alike; for URNs whose parts hold no comma (every parsed
      URN) equal `id_str` also means equal URNs. */
  lemma EqualsIffSameIdStr(a: URN, b: URN)
    requires |a.idParts| >= 1 && |b.idParts| >= 1
    requires forall i :: 0 <= i < |a.idParts| ==> ',' !in a.idParts[i]
    requires forall i :: 0 <= i < |b.idParts| ==> ',' !in b.idParts[i]
    ensures Equals(a, AUrn(b)) <==> IdStr(a) == IdStr(b)
  {
    if IdStr(a) == IdStr(b) {
      SplitJoin(a.idParts, ',');
      SplitJoin(b.idParts, ',');
    }
  }
}

=== FILE: wrappers.dfy ===
/** Failure-compatible wrappers used throughout the model. */
module Wrappers {

  /** A value that may be absent (Python's `None`). */
  datatype Option<+T> = None | Some(value: T)

  /** Either a computed value or the exception that was raised instead. */
  datatype Result<+T, +E> = Success(value: T) | Failure(error: E)
}
